=== FILE: README.md ===
# Minesweeper engine with a supermine, in Dafny

This project models the engine of Minesweeper-NTUA (emsquared2/Minesweeper-NTUA), a Minesweeper variant written in Java with a JavaFX interface. The variant has these features:

- two difficulty levels, with a 9×9 or a 16×16 board;
- an optional *supermine*;
- a countdown clock;
- a history of the last five rounds.

Everything is modelled as immutable data with pure transitions, in these modules:

- `Tiles` (`tile.dfy`): the per-square state machine. It covers the constructor, `reveal` and `toggleFlag`, with the JavaFX styling stripped.
- `Boards` (`board.dfy`): the board as `seq<seq<Tile>>`. It also holds:
  - counting of squares by property;
  - the board-clipped 3×3 adjacency count;
  - `RevealMines`.
- `BoardGenerator` (`board_generator.dfy`): covers the following.
  - The generator's constructor (side 9 or 16, an all-zero board).
  - Rejection-sampling mine placement. The random generator becomes a supplied sequence of coordinates.
  - The `mines.txt` record as a list of lines, with a parser that reads a line back.
- `GameLogic` (`game_logic.dfy`): the round engine. It covers:
  - `revealTile` with its flood fill;
  - losing on a mine and the win equation;
  - `flagTile`, with the flag budget and the one-shot supermine rule;
  - `AddRevealClick` and `Solution`;
  - the body of the timer task, as an explicit `Tick`;
  - `EndGame`'s summary. The summary is appended to the round's `records` instead of being written to disk.
- `DescriptionReader` (`description_reader.dfy`): the scenario validator. It maps the lines of a description file to a `GameDescription` or to the first error, in the order the Java code checks them.
- `FileManager` (`file_manager.dfy`): the bounded history of `round-N.txt` files. The directory is a map from name to (timestamp, content). The module covers:
  - the choice between a new file and the oldest one;
  - the four-line record, with a parser that reads it back.
- `Text` (`text.dfy`): the decimal text of integers (`Integer.toString` / `Integer.parseInt`) and line splitting, which the record formats use.
- `Wrappers` (`wrappers.dfy`): `Option` and `Result`.

The engine's central invariant is `GameLogic.Valid`. Every transition keeps it:

- `numRevealed` is the number of open squares without a mine;
- `markedTiles` is at most `numMines`, and equals the number of flags while the round is live;
- no flag sits on an open square;
- every open safe square shows its adjacency count;
- a round is over exactly when it is won or lost;
- a won round met the win equation (`numRevealed + numMines` fills the board) with time left;
- a live round with a safe square open does not meet it, because every safe opening checks for the win.

So once a safe square is open, a round not lost is won exactly when the win equation holds (`GameLogic.SafeOpenDecidesWin`). A round in which no safe square was ever opened is never won, as in the Java code: the win is only checked after a safe square opens.

The flood fill is a mutual recursion that ends on the number of closed squares. Its contract pins down the region it opens in two halves:

- `FloodClosed`: every square the fill opened with no mine around it has its whole 3×3 block open, unless the round ended on the way.
- `FloodFrom`: every safe square the fill opened is reached from the clicked square along a path of opened squares, each step going to a touching square, and every square on the path before the last having no mine around it.

Together these say the fill opens exactly the connected region of mine-free squares around the click, plus its numbered border. Squares that were already open act as walls, as in the Java code.

## Model

| member | source | states |
|---|---|---|
| Tiles.NewTile | src/application/GameObjects/Tile.java:33-39 | a new square is closed, unflagged, has adjacency 0 and the given row, column and value |
| Tiles.Reveal | src/application/GameObjects/Tile.java:52-59 | opening sets the open flag and clears the flag from any prior state; row, column, value and adjacency are kept, so opening twice equals opening once |
| Tiles.ToggleFlag | src/application/GameObjects/Tile.java:79-80 | the flag is negated; openness, row, column, value and adjacency are kept |
| Boards.AdjacentMines | src/application/GameObjects/GameLogic.java:273-284 | the count of mine-bearing squares in the board-clipped 3×3 block is at most 8 around a safe square, and is 0 exactly when no in-bounds neighbour holds a mine |
| Boards.RevealMines | src/application/GameObjects/GameLogic.java:239-247 | every mine or supermine square is opened; every other square is unchanged |
| BoardGenerator.InitialBoard | src/application/GameObjects/BoardGenerator.java:40-44 | the initial board is square, every square is `Tile(i, j, 0)`, and no square is non-zero or the supermine |
| BoardGenerator.NewGenerator | src/application/GameObjects/BoardGenerator.java:32-45 | the side is 9 for level 1 and 16 for any other level; the board is the initial board |
| BoardGenerator.GenerateBoard | src/application/GameObjects/BoardGenerator.java:52-84 | when the coordinates suffice, all of the following hold. The result has exactly max(numMines, 1 if supermine) non-zero squares. It has exactly one supermine, at the first drawn square, if one is requested, and none otherwise. Every value is 0, -1 or -2. Every mine lies on a drawn square. Row, column, flags and adjacency are untouched. When the coordinates run out, fewer distinct squares were drawn than mines are needed |
| BoardGenerator.MineEntries | src/application/GameObjects/BoardGenerator.java:105-110 | the entries are exactly the non-zero squares, one each, in strict row-major order; the supermine flag is set exactly on the supermine |
| BoardGenerator.MineRecorder | src/application/GameObjects/BoardGenerator.java:102-117 | one line `i,j,s` per non-zero square, in row-major order |
| BoardGenerator.ParseMineLineOfMineLine | src/application/GameObjects/BoardGenerator.java:109 | every mine line reads back as the entry it was written from |
| DescriptionReader.ReadDescription | src/application/ReadScenario/DescriptionReader.java:27-90 | reports these errors in order: a missing line (naming the first, and only when fewer than four lines exist), then the level, mines, time and supermine checks. Within each check, a line that does not parse is reported as that field's number-format error, and a number-format error always names a line that does not parse. It succeeds exactly on well-formed input. On success the fields equal the parsed values, and the supermine flag holds exactly when line 4 is 1 |
| DescriptionReader.ExtraLinesIgnored | src/application/ReadScenario/DescriptionReader.java:35-38 | lines after the fourth do not change the result |
| DescriptionReader.ReadDescriptionComplete | src/application/ReadScenario/DescriptionReader.java:53-85 | every acceptable description, written one number per line, is accepted and read back as itself |
| DescriptionReader.ReadDescriptionSound | src/application/ReadScenario/DescriptionReader.java:53-85 | whatever is accepted is acceptable and is what its own lines would give |
| Text.ParseIntOfIntToString | src/application/ReadScenario/DescriptionReader.java:53 | the parser of decimal lines reads every 32-bit integer's text back as that integer |
| FileManager.Destination | src/application/GameObjects/FileManager.java:47-61 | with k < 5 history files the target is `round-(k+1).txt`; otherwise it is a history file with the smallest timestamp; it is always a history name |
| FileManager.Oldest | src/application/GameObjects/FileManager.java:49-59 | the chosen file is in the history and no history file is older |
| FileManager.WriteCurrentRound | src/application/GameObjects/FileManager.java:38-62 | only the destination changes, and it gets the current timestamp and the four-line record; the history gains exactly the destination |
| FileManager.ParseRoundRecordOfRoundRecord | src/application/GameObjects/FileManager.java:76-79 | the four-line record reads back as the summary it was written from |
| FileManager.RoundFileNameInjective | src/application/GameObjects/FileManager.java:53-54 | different round numbers give different file names |
| FileManager.WriteAllKeepsFirstNames | src/application/GameObjects/FileManager.java:52-61 | from history `round-1..k`, n writes leave history `round-1..min(k+n, 5)` |
| FileManager.HistoryBounded | src/application/GameObjects/FileManager.java:22-61 | from an empty directory, n writes leave min(n, 5) history files |
| GameLogic.NewGameValid | src/application/GameObjects/GameLogic.java:57-71 | a new round on an untouched board satisfies the engine invariant |
| GameLogic.Winner | src/application/GameObjects/GameLogic.java:256 | the winner is "Player" exactly when the round was won, and "PC" otherwise |
| GameLogic.EndGame | src/application/GameObjects/GameLogic.java:252-265 | the round is over and exactly one summary is recorded; nothing else changes |
| GameLogic.SummaryRecordRoundTrip | src/application/GameObjects/GameLogic.java:256-260 | the summary handed to the history reads back from its record |
| GameLogic.CheckIfGameWon | src/application/GameObjects/GameLogic.java:290-295 | the round becomes won exactly when it already was, or the win equation holds with time left. A win ends the round and records a summary naming "Player"; otherwise nothing changes |
| GameLogic.WinEquationMeansAllSafeOpen | src/application/GameObjects/GameLogic.java:287-291 | on a generated board, the win equation holds exactly when every safe square is open |
| GameLogic.HitMine | src/application/GameObjects/GameLogic.java:89-93 | opening a mine loses the round: every mine is open, no safe square changes, and the counters keep the invariant |
| GameLogic.OpenSafe | src/application/GameObjects/GameLogic.java:97-112 | opening a closed safe square has these effects. Its adjacency count is stored and it is opened. `numRevealed` grows by one and a flag on it is returned. The win equation is checked and no other square changes |
| GameLogic.SafeOpenDecidesWin | src/application/GameObjects/GameLogic.java:286-295 | when an open safe square exists and the round is not lost, it is won exactly when open safe squares and mines fill the board with time left |
| GameLogic.RevealTile | src/application/GameObjects/GameLogic.java:81-127 | it changes nothing on an open square or a finished round. On a mine, the round is lost with all mines open. A safe target ends open with no mine touched. Without recursion only the target changes. With recursion, every square it opens with no mine around it has its whole block open (unless the round ended), and every safe square it opens is reached from the target through opened mine-free squares. Every square left closed is exactly as it was, flag included. On a safe target, flags on the squares it opens are returned to the budget one for one, even when the fill wins the round part-way, and on a live round the result is won exactly when the win equation holds. It keeps the invariant and never grows the number of closed squares |
| GameLogic.RevealNeighbours | src/application/GameObjects/GameLogic.java:115-124 | around a square with no adjacent mine, every in-bounds neighbour ends open and no mine is touched. Every square the recursive calls open with no mine around it has its block open (unless the round ended), and every safe square opened is reached from one of the neighbours. Squares left closed are unchanged, and each flag on an opened square is returned to the budget. When the centre is open and the round not lost, the result is won exactly when the win equation holds |
| GameLogic.AddRevealClick | src/application/GameObjects/GameLogic.java:136-143 | one left click counts exactly one attempt and starts the clock. On an open square or a finished round nothing else changes. `numMines`, `maxTime`, `timeLeft` and the latch never change, open squares stay as they are, and a summary is recorded exactly when the click ends the round. A mine loses the round with every mine open and no safe square or counter touched. On a safe square, the fill opens exactly the connected mine-free region around the click plus its border: what it opens is closed under spreading (unless the round ended) and reached from the clicked square. Squares left closed are unchanged, and flags on opened squares are returned one for one. A safe click on a live round wins exactly when the win equation holds |
| GameLogic.ClearFlag | src/application/GameObjects/GameLogic.java:170-175 | removing a flag returns it to the budget and changes no other square; after the round it does nothing |
| GameLogic.Flag | src/application/GameObjects/GameLogic.java:153-234 | see the note after the table |
| GameLogic.FlagOnFlagged | src/application/GameObjects/GameLogic.java:190-193 | the nested `flagTile` calls of the supermine rule only remove a flag |
| GameLogic.FlagTwice | src/application/GameObjects/GameLogic.java:170-179 | two right-clicks on a closed square, away from the rule, restore the round except for the clock start |
| GameLogic.PlaceThenClear | src/application/GameObjects/GameLogic.java:188-193 | placing and then removing a flag restores the round |
| GameLogic.SupermineRule | src/application/GameObjects/GameLogic.java:185-233 | the latch is set and the supermine is opened. With one supermine, the round is not lost and nothing outside its row and column changes, and once a safe square is open it is won exactly when the win equation holds. On a generated board, its whole row and column end open |
| GameLogic.CrossReveal | src/application/GameObjects/GameLogic.java:199-232 | the row and column of the supermine are opened square by square, without flood fill and without touching anything else. If the result is not lost and has a safe square open, it is won exactly when the win equation holds |
| GameLogic.LineReveal | src/application/GameObjects/GameLogic.java:201-215 | an ordinary mine in the cross is unflagged and shown directly; any other square goes through `revealTile` without recursion. A safe square on a live round leaves it won exactly when the win equation holds |
| GameLogic.ShowMine | src/application/GameObjects/GameLogic.java:209 | a mine is shown without ending the round; no counter and no other square changes |
| GameLogic.Tick | src/application/GameObjects/GameLogic.java:303-312 | with the clock running on a live round, a second comes off while time is left; otherwise the round is lost, with all of `maxTime` used. A stopped clock or a finished round is untouched |
| GameLogic.CountDown | src/application/GameObjects/GameLogic.java:304-306 | n seconds with n ≤ `timeLeft` take exactly n off the clock |
| GameLogic.TimeRunsOut | src/application/GameObjects/GameLogic.java:303-312 | `timeLeft + 1` seconds of a running clock lose the round and record the summary |
| GameLogic.Solution | src/application/GameObjects/GameLogic.java:323-336 | it refuses exactly when there has been no left click. Otherwise every mine is opened, no safe square changes, the round ends lost and one summary is recorded. No other field changes, `markedTiles` and the clock start included |
| GameLogic.Forfeit | src/application/GameObjects/GameLogic.java:332-334 | all mines are shown and the round is lost, without regard to an earlier outcome |
| GameLogic.Apply | src/application/GameObjects/GameLogic.java:136-143 | any input keeps the invariant and the layout, keeps open squares open, and adds one attempt for a left click and none otherwise |
| GameLogic.Run | src/application/GameObjects/GameLogic.java:141 | over any input sequence, the attempts grow by the number of left clicks; the latch, the clock start and the end of the round are never undone |
| GameLogic.PlayRound | src/application/GameObjects/GameLogic.java:57-143 | in every round reachable from a fresh board, `numRevealed` counts the open safe squares and the flags in use never exceed `numMines`. While the round is live, the flags in use equal the number of flags on the board. Over means won or lost, and the attempts are the left clicks. Once a safe square is open, a round not lost is won exactly when the win equation holds |
| GameLogic.OverIsFinal | src/application/GameObjects/GameLogic.java:84-86 | after the round, clicks and seconds change neither the board, the outcome, `numRevealed`, `markedTiles`, `timeLeft` nor the history. `attempts` still grows with every left click |

`GameLogic.Flag` models all of `flagTile`:

- A right-click on the supermine starts the clock.
- It does nothing after the round, on an open square, or when the budget is used up and the square is unflagged.
- Otherwise it removes a flag (budget −1) or places one (budget +1).
- The latch is set exactly when the supermine rule fires. With a single supermine, the rule does not lose the round and changes nothing outside the row and column. Once a safe square is open, the round is then won exactly when the win equation holds.
- On a generated board, the rule leaves the whole row and column open.

## Left out

- Rendering, dialogs and menus (`setStyle`, `setDisable`, images, the Solution error alert). The alert becomes the `NotStarted` error of `GameLogic.Solution`.
- The `Timer` thread. Each run of its task is an explicit `Tick`, and `EndGame`'s `stopTimer` becomes "a finished round ignores ticks". Nothing runs concurrently.
- The random generator. `GenerateBoard` takes the coordinates it would draw as a sequence, so placement succeeds only if that sequence is long enough. Uniformity and termination with probability one are not modelled.
- File I/O. Directory creation, listing, timestamps and writes become an abstract map from name to (timestamp, content), and the time of a write is a parameter. `EndGame` appends the summary to `records` in the engine; `FileManager.WriteCurrentRound` is the write itself. An `IOException` is not modelled.
- Ties among equally old history files. The Java code's sort leaves the choice open, so `FileManager.Oldest` picks one of them.
- `Integer.parseInt`: only ASCII digits with an optional sign, within the 32-bit range. Non-ASCII digits are not modelled.
- The order of the history listing is not modelled; only the file chosen from it matters.
- `BoardPrinter`, the getters, `ScenarioReader`, and the GUI. This includes the GUI's re-generation of the board when the first click hits a mine, and its `Playing` guard around `Solution`.
- GameLogic.Flag: the nested `flagTile` calls inside the supermine rule are modelled as `ClearFlag`. `GameLogic.FlagOnFlagged` shows they coincide on the squares those calls meet.
- GameLogic.Solution: like the Java code, it does not check whether the round is already over. On a won round it records a second summary and sets `gameLost` next to `gameWon`. The GUI's `Playing` guard normally prevents this.
- GameLogic.SupermineRule: its row-and-column guarantee is stated for boards with at most one supermine and exactly `numMines` mines, which is what `BoardGenerator.GenerateBoard` produces. A second supermine in the cross would be opened through `revealTile` and lose the round, as in the Java code.
- GameLogic.Valid: `markedTiles` may exceed the number of flags once the round is over. Opening mines directly clears their flags without touching the counter, as in the Java code.
- Integer widths. `timeLeft` (a `long`) and the counters are unbounded integers. In every reachable round `numRevealed` is a count of squares and `markedTiles` lies between the number of flags and `numMines` (`GameLogic.PlayRound`). `attempts` grows with every left click, including clicks on open squares and after the round. The Java `int` would wrap after 2^31 − 1 clicks; that wrap-around is not modelled.

=== FILE: board.dfy ===
/**
 * The N x N grid of squares shared by the generator and the round engine, with the
 * counting and neighbourhood notions both of them need.
 */
module Boards {
  import opened Tiles

  /** `board[row][col]`, as in the Java game's `Tile[][]`. */
  type Board = seq<seq<Tile>>

  predicate Square(b: Board) {
    forall i :: 0 <= i < |b| ==> |b[i]| == |b|
  }

  /** The Java code's bounds test against `boardsize`, the number of rows. */
  predicate InBounds(b: Board, r: int, c: int) {
    0 <= r < |b| && 0 <= c < |b|
  }

  /** Replaces one square. */
  function Set(b: Board, r: int, c: int, t: Tile): (b': Board)
    requires Square(b) && InBounds(b, r, c)
    ensures Square(b') && |b'| == |b|
    ensures b'[r][c] == t
    ensures forall i, j :: InBounds(b, i, j) && (i != r || j != c) ==> b'[i][j] == b[i][j]
  {
    b[r := b[r][c := t]]
  }

  /** Writing a square back restores the board. */
  lemma SetBack(b: Board, r: int, c: int, t: Tile)
    requires Square(b) && InBounds(b, r, c)
    ensures Set(Set(b, r, c, t), r, c, b[r][c]) == b
  {
    assert b[r][c := t][c := b[r][c]] == b[r];
  }

  /** Both boards have the same size and the same positions and contents square by square. */
  ghost predicate SameLayout(b: Board, b': Board) {
    && Square(b) && Square(b') && |b| == |b'|
    && forall i, j :: InBounds(b, i, j) ==> SameContent(b[i][j], b'[i][j])
  }

  /** Squares that are open in `b` are exactly as they were in `b'`: opening is final. */
  ghost predicate OpenSquaresKept(b: Board, b': Board)
    requires SameLayout(b, b')
  {
    forall i, j :: InBounds(b, i, j) && b[i][j].isRevealed ==> b'[i][j] == b[i][j]
  }

  lemma SameLayoutTransitive(b0: Board, b1: Board, b2: Board)
    requires SameLayout(b0, b1) && SameLayout(b1, b2)
    ensures SameLayout(b0, b2)
  {
  }

  // ---------------------------------------------------------------------------
  // Counting squares

  /** The square properties the model counts. */
  datatype Prop = Hidden | Flagged | RevealedSafe | Safe | MineBearing | Super | NonEmpty

  predicate Holds(p: Prop, t: Tile) {
    match p
    case Hidden => !t.isRevealed
    case Flagged => t.isFlagged
    case RevealedSafe => t.isRevealed && !IsMine(t)
    case Safe => !IsMine(t)
    case MineBearing => IsMine(t)
    case Super => IsSuperMine(t)
    case NonEmpty => t.value != 0
  }

  function Ind(p: Prop, t: Tile): nat {
    if Holds(p, t) then 1 else 0
  }

  function CountRow(row: seq<Tile>, p: Prop): nat {
    if |row| == 0 then 0 else Ind(p, row[0]) + CountRow(row[1..], p)
  }

  /** Number of squares of `b` satisfying `p`. */
  function Count(b: Board, p: Prop): nat {
    if |b| == 0 then 0 else CountRow(b[0], p) + Count(b[1..], p)
  }

  /** Number of squares of `b`. */
  function Cells(b: Board): nat {
    if |b| == 0 then 0 else |b[0]| + Cells(b[1..])
  }

  lemma {:induction false} CountRowUpdate(row: seq<Tile>, j: int, t: Tile, p: Prop)
    requires 0 <= j < |row|
    ensures CountRow(row[j := t], p) == CountRow(row, p) - Ind(p, row[j]) + Ind(p, t)
    decreases |row|
  {
    if j > 0 {
      assert row[j := t][1..] == row[1..][j - 1 := t];
      CountRowUpdate(row[1..], j - 1, t, p);
    } else {
      assert row[j := t][1..] == row[1..];
    }
  }

  lemma {:induction false} CountRowsUpdate(b: Board, r: int, row: seq<Tile>, p: Prop)
    requires 0 <= r < |b|
    ensures Count(b[r := row], p) == Count(b, p) - CountRow(b[r], p) + CountRow(row, p)
    decreases |b|
  {
    if r > 0 {
      assert b[r := row][1..] == b[1..][r - 1 := row];
      CountRowsUpdate(b[1..], r - 1, row, p);
    } else {
      assert b[r := row][1..] == b[1..];
    }
  }

  /** Replacing one square moves every count by that square's contribution only. */
  lemma CountSet(b: Board, r: int, c: int, t: Tile, p: Prop)
    requires Square(b) && InBounds(b, r, c)
    ensures Count(Set(b, r, c, t), p) == Count(b, p) - Ind(p, b[r][c]) + Ind(p, t)
  {
    CountRowUpdate(b[r], c, t, p);
    CountRowsUpdate(b, r, b[r][c := t], p);
  }

  predicate SameShape(b: Board, b': Board) {
    |b| == |b'| && forall i :: 0 <= i < |b| ==> |b[i]| == |b'[i]|
  }

  /** Wherever `p` holds in `b`, `q` holds at the same square of `b'`. */
  ghost predicate Implies(b: Board, p: Prop, b': Board, q: Prop)
    requires SameShape(b, b')
  {
    forall i, j :: 0 <= i < |b| && 0 <= j < |b[i]| && Holds(p, b[i][j]) ==> Holds(q, b'[i][j])
  }

  lemma {:induction false} CountRowMono(row: seq<Tile>, p: Prop, row': seq<Tile>, q: Prop)
    requires |row| == |row'|
    requires forall j :: 0 <= j < |row| && Holds(p, row[j]) ==> Holds(q, row'[j])
    ensures CountRow(row, p) <= CountRow(row', q)
    ensures (exists j :: 0 <= j < |row| && Holds(q, row'[j]) && !Holds(p, row[j]))
            ==> CountRow(row, p) < CountRow(row', q)
    decreases |row|
  {
    if |row| > 0 {
      CountRowMono(row[1..], p, row'[1..], q);
      if exists j :: 0 <= j < |row| && Holds(q, row'[j]) && !Holds(p, row[j]) {
        var j :| 0 <= j < |row| && Holds(q, row'[j]) && !Holds(p, row[j]);
        if j > 0 {
          assert Holds(q, row'[1..][j - 1]) && !Holds(p, row[1..][j - 1]);
        }
      }
    }
  }

  /**
   * Counting is monotone under square-wise implication, and strictly so when some
   * square of `b'` satisfies `q` where `b` does not satisfy `p`.
   */
  lemma {:induction false} CountMono(b: Board, p: Prop, b': Board, q: Prop)
    requires SameShape(b, b') && Implies(b, p, b', q)
    ensures Count(b, p) <= Count(b', q)
    ensures (exists i, j :: 0 <= i < |b| && 0 <= j < |b[i]| && Holds(q, b'[i][j]) && !Holds(p, b[i][j]))
            ==> Count(b, p) < Count(b', q)
    decreases |b|
  {
    if |b| > 0 {
      CountRowMono(b[0], p, b'[0], q);
      assert SameShape(b[1..], b'[1..]);
      assert Implies(b[1..], p, b'[1..], q) by {
        forall i, j | 0 <= i < |b[1..]| && 0 <= j < |b[1..][i]| && Holds(p, b[1..][i][j])
          ensures Holds(q, b'[1..][i][j])
        {
          assert b[1..][i] == b[i + 1] && b'[1..][i] == b'[i + 1];
        }
      }
      CountMono(b[1..], p, b'[1..], q);
      if exists i, j :: 0 <= i < |b| && 0 <= j < |b[i]| && Holds(q, b'[i][j]) && !Holds(p, b[i][j]) {
        var i, j :| 0 <= i < |b| && 0 <= j < |b[i]| && Holds(q, b'[i][j]) && !Holds(p, b[i][j]);
        if i > 0 {
          assert b[1..][i - 1] == b[i] && b'[1..][i - 1] == b'[i];
        }
      }
    }
  }

  /** A property that holds nowhere counts zero. */
  lemma {:induction false} CountNone(b: Board, p: Prop)
    requires forall i, j :: 0 <= i < |b| && 0 <= j < |b[i]| ==> !Holds(p, b[i][j])
    ensures Count(b, p) == 0
    decreases |b|
  {
    if |b| > 0 {
      CountRowNone(b[0], p);
      assert forall i, j :: 0 <= i < |b[1..]| && 0 <= j < |b[1..][i]| ==> b[1..][i][j] == b[i + 1][j];
      CountNone(b[1..], p);
    }
  }

  lemma {:induction false} CountRowNone(row: seq<Tile>, p: Prop)
    requires forall j :: 0 <= j < |row| ==> !Holds(p, row[j])
    ensures CountRow(row, p) == 0
    decreases |row|
  {
    if |row| > 0 {
      CountRowNone(row[1..], p);
    }
  }

  /** Equal counts under square-wise implication force the converse implication. */
  lemma CountEqForcesConverse(b: Board, p: Prop, b': Board, q: Prop)
    requires SameShape(b, b') && Implies(b, p, b', q)
    requires Count(b, p) == Count(b', q)
    ensures forall i, j :: 0 <= i < |b| && 0 <= j < |b[i]| && Holds(q, b'[i][j]) ==> Holds(p, b[i][j])
  {
    CountMono(b, p, b', q);
  }

  lemma {:induction false} CountRowComplement(row: seq<Tile>)
    ensures CountRow(row, Safe) + CountRow(row, MineBearing) == |row|
    decreases |row|
  {
    if |row| > 0 {
      CountRowComplement(row[1..]);
    }
  }

  /** Every square is either safe or mine-bearing. */
  lemma {:induction false} CountComplement(b: Board)
    ensures Count(b, Safe) + Count(b, MineBearing) == Cells(b)
    decreases |b|
  {
    if |b| > 0 {
      CountRowComplement(b[0]);
      CountComplement(b[1..]);
    }
  }

  lemma {:induction false} CellsOfRows(b: Board, n: nat)
    requires forall i :: 0 <= i < |b| ==> |b[i]| == n
    ensures Cells(b) == |b| * n
    decreases |b|
  {
    if |b| > 0 {
      CellsOfRows(b[1..], n);
    }
  }

  lemma {:induction false} CellsOfSquare(b: Board)
    requires Square(b)
    ensures Cells(b) == |b| * |b|
  {
    CellsOfRows(b, |b|);
  }

  // ---------------------------------------------------------------------------
  // Neighbourhoods

  /** 1 when (i, j) is on the board and holds a mine of either kind. */
  function MineAt(b: Board, i: int, j: int): nat
    requires Square(b)
  {
    if InBounds(b, i, j) && IsMine(b[i][j]) then 1 else 0
  }

  /** Whether (i, j) lies in the 3 x 3 block centred on (r, c). */
  predicate Around(r: int, c: int, i: int, j: int) {
    r - 1 <= i <= r + 1 && c - 1 <= j <= c + 1
  }

  /**
   * Mine-bearing squares in the 3 x 3 block around (r, c), clipped at the edges of the
   * board; the block includes (r, c) itself, as in the Java code's double loop.
   */
  function AdjacentMines(b: Board, r: int, c: int): (n: nat)
    requires Square(b)
    ensures InBounds(b, r, c) && !IsMine(b[r][c]) ==> n <= 8
    ensures n == 0 <==> forall i, j :: InBounds(b, i, j) && Around(r, c, i, j) ==> !IsMine(b[i][j])
  {
    MineAt(b, r - 1, c - 1) + MineAt(b, r - 1, c) + MineAt(b, r - 1, c + 1)
    + MineAt(b, r, c - 1) + MineAt(b, r, c) + MineAt(b, r, c + 1)
    + MineAt(b, r + 1, c - 1) + MineAt(b, r + 1, c) + MineAt(b, r + 1, c + 1)
  }

  /** Boards with the same contents have the same adjacency counts. */
  lemma AdjacentMinesOfSameLayout(b: Board, b': Board, r: int, c: int)
    requires SameLayout(b, b')
    ensures AdjacentMines(b, r, c) == AdjacentMines(b', r, c)
  {
  }

  /** The k-th cell (0 <= k < 9) of the 3 x 3 block, in the Java code's loop order. */
  function Neighbour(r: int, c: int, k: int): (p: (int, int))
    requires 0 <= k < 9
    ensures Around(r, c, p.0, p.1)
  {
    (r - 1 + k / 3, c - 1 + k % 3)
  }

  /** Every cell of the 3 x 3 block is visited by the loop order. */
  lemma NeighbourIndex(r: int, c: int, i: int, j: int) returns (k: int)
    requires Around(r, c, i, j)
    ensures 0 <= k < 9 && Neighbour(r, c, k) == (i, j)
  {
    k := (i - r + 1) * 3 + (j - c + 1);
  }

  // ---------------------------------------------------------------------------
  // Opening every mine

  /** Opens every mine-bearing square and leaves all others untouched. */
  function RevealMines(b: Board): (b': Board)
    requires Square(b)
    ensures Square(b') && |b'| == |b|
    ensures forall i, j :: InBounds(b, i, j) && IsMine(b[i][j]) ==> b'[i][j] == Reveal(b[i][j])
    ensures forall i, j :: InBounds(b, i, j) && !IsMine(b[i][j]) ==> b'[i][j] == b[i][j]
  {
    seq(|b|, i requires 0 <= i < |b| =>
      seq(|b|, j requires 0 <= j < |b| => if IsMine(b[i][j]) then Reveal(b[i][j]) else b[i][j]))
  }
}

=== FILE: board_generator.dfy ===
/**
 * Board generation: an all-empty N x N board, then one supermine (when the scenario asks
 * for it) and ordinary mines dropped on random squares, rejecting squares already taken.
 * The random source is an explicit sequence of (x, y) draws, each within the board, as
 * `Random.nextInt(boardSize)` guarantees.
 */
module BoardGenerator {
  import opened Wrappers
  import opened Tiles
  import opened Boards
  import opened Text

  /** The generator's state after construction. */
  datatype Generator = Generator(board: Board, boardSize: nat, numMines: int, hasSupermine: bool)

  /** The all-empty board: square (i, j) is a new tile at (i, j) with content 0. */
  function InitialBoard(n: nat): (b: Board)
    ensures Square(b) && |b| == n
    ensures forall i, j :: InBounds(b, i, j) ==> b[i][j] == NewTile(i, j, 0)
    ensures Count(b, NonEmpty) == 0 && Count(b, Super) == 0
  {
    var b := seq(n, i => seq(n, j => NewTile(i, j, 0)));
    CountNone(b, NonEmpty);
    CountNone(b, Super);
    b
  }

  /** Level 1 plays on 9 x 9, every other level on 16 x 16; nothing is placed yet. */
  function NewGenerator(difficultyLevel: int, numMines: int, hasSupermine: bool): (g: Generator)
    ensures difficultyLevel == 1 ==> g.boardSize == 9
    ensures difficultyLevel != 1 ==> g.boardSize == 16
    ensures g.board == InitialBoard(g.boardSize)
    ensures g.numMines == numMines && g.hasSupermine == hasSupermine
  {
    var n := if difficultyLevel == 1 then 9 else 16;
    Generator(InitialBoard(n), n, numMines, hasSupermine)
  }

  /** How many mine-bearing squares generation ends with: the loop stops once `numMines` is reached. */
  function Target(numMines: int, hasSupermine: bool): nat {
    var initial := if hasSupermine then 1 else 0;
    if numMines > initial then numMines else initial
  }

  /** The distinct squares among the first `n` draws. */
  ghost function Drawn(picks: seq<(int, int)>, n: nat): set<(int, int)>
    requires n <= |picks|
  {
    set k | 0 <= k < n :: picks[k]
  }

  /** Every square is a tile at its own position, unflagged and closed; only its content varies. */
  ghost predicate Untouched(b: Board) {
    Square(b) && forall i, j :: InBounds(b, i, j) ==> b[i][j] == NewTile(i, j, b[i][j].value)
  }

  ghost predicate ValidCodes(b: Board)
    requires Square(b)
  {
    forall i, j :: InBounds(b, i, j) ==> b[i][j].value in {0, MINE, SUPER_MINE}
  }

  /** What holds after `next` draws have been used and `placed` mines are on the board. */
  ghost predicate Placement(gen: Generator, picks: seq<(int, int)>, b: Board, next: nat, placed: nat) {
    && |b| == gen.boardSize && Untouched(b) && ValidCodes(b)
    && next <= |picks| && (gen.hasSupermine ==> 1 <= next && 1 <= placed)
    && (forall i, j :: InBounds(b, i, j) ==>
          (IsSuperMine(b[i][j]) <==> gen.hasSupermine && 0 < |picks| && (i, j) == picks[0]))
    && (forall i, j :: InBounds(b, i, j) ==> (b[i][j].value != 0 <==> (i, j) in Drawn(picks, next)))
    && placed == |Drawn(picks, next)| == Count(b, NonEmpty)
    && Count(b, Super) == (if gen.hasSupermine then 1 else 0)
  }

  /** The state before the loop: the supermine (if any) sits on the first draw. */
  lemma PlacementStart(gen: Generator, picks: seq<(int, int)>)
    requires gen.board == InitialBoard(gen.boardSize)
    requires forall k :: 0 <= k < |picks| ==> InBounds(gen.board, picks[k].0, picks[k].1)
    requires gen.hasSupermine ==> 0 < |picks|
    ensures !gen.hasSupermine ==> Placement(gen, picks, gen.board, 0, 0)
    ensures gen.hasSupermine ==>
      Placement(gen, picks, Set(gen.board, picks[0].0, picks[0].1, SetValue(gen.board[picks[0].0][picks[0].1], SUPER_MINE)), 1, 1)
  {
    var b := gen.board;
    assert Drawn(picks, 0) == {};
    if gen.hasSupermine {
      var (x, y) := picks[0];
      CountSet(b, x, y, SetValue(b[x][y], SUPER_MINE), NonEmpty);
      CountSet(b, x, y, SetValue(b[x][y], SUPER_MINE), Super);
      assert Drawn(picks, 1) == {picks[0]};
    }
  }

  /** A draw on an empty square places an ordinary mine there. */
  lemma PlacementDrawEmpty(gen: Generator, picks: seq<(int, int)>, b: Board, next: nat, placed: nat)
    requires Placement(gen, picks, b, next, placed) && next < |picks|
    requires InBounds(b, picks[next].0, picks[next].1) && b[picks[next].0][picks[next].1].value == 0
    ensures Placement(gen, picks, Set(b, picks[next].0, picks[next].1, SetValue(b[picks[next].0][picks[next].1], MINE)), next + 1, placed + 1)
  {
    var (x, y) := picks[next];
    assert Drawn(picks, next + 1) == Drawn(picks, next) + {picks[next]};
    CountSet(b, x, y, SetValue(b[x][y], MINE), NonEmpty);
    CountSet(b, x, y, SetValue(b[x][y], MINE), Super);
  }

  /** A draw on a taken square is rejected and changes nothing. */
  lemma PlacementDrawTaken(gen: Generator, picks: seq<(int, int)>, b: Board, next: nat, placed: nat)
    requires Placement(gen, picks, b, next, placed) && next < |picks|
    requires InBounds(b, picks[next].0, picks[next].1) && b[picks[next].0][picks[next].1].value != 0
    ensures Placement(gen, picks, b, next + 1, placed)
  {
    assert picks[next] in Drawn(picks, next);
    assert Drawn(picks, next + 1) == Drawn(picks, next);
  }

  /**
   * The placement guarantees of a finished board: squares keep their positions and stay
   * closed, contents are 0, MINE or SUPER_MINE, exactly `Target` squares are mine-bearing,
   * the supermine is on the first draw exactly when one was asked for, and every mine sits
   * on a drawn square.
   */
  ghost predicate WellPlaced(gen: Generator, picks: seq<(int, int)>, b: Board) {
    && |b| == gen.boardSize && Untouched(b) && ValidCodes(b)
    && Count(b, NonEmpty) == Target(gen.numMines, gen.hasSupermine)
    && Count(b, MineBearing) == Target(gen.numMines, gen.hasSupermine)
    && Count(b, Super) == (if gen.hasSupermine then 1 else 0)
    && (forall i, j :: InBounds(b, i, j) ==>
          (IsSuperMine(b[i][j]) <==> gen.hasSupermine && 0 < |picks| && (i, j) == picks[0]))
    && (forall i, j :: InBounds(b, i, j) && b[i][j].value != 0 ==>
          exists k :: 0 <= k < |picks| && picks[k] == (i, j))
  }

  lemma PlacementDone(gen: Generator, picks: seq<(int, int)>, b: Board, next: nat, placed: nat)
    requires Placement(gen, picks, b, next, placed)
    requires gen.numMines <= placed <= Target(gen.numMines, gen.hasSupermine)
    ensures WellPlaced(gen, picks, b)
  {
    CountMono(b, NonEmpty, b, MineBearing);
    CountMono(b, MineBearing, b, NonEmpty);
    forall i, j | InBounds(b, i, j) && b[i][j].value != 0
      ensures exists k :: 0 <= k < |picks| && picks[k] == (i, j)
    {
      assert (i, j) in Drawn(picks, next);
    }
  }

  /**
   * Places the mines using the draws in `picks`. Fails (None) only when the draws run
   * out, which happens only if they hold fewer distinct squares than mines to place.
   */
  method GenerateBoard(gen: Generator, picks: seq<(int, int)>) returns (r: Option<Board>)
    requires gen.board == InitialBoard(gen.boardSize)
    requires forall k :: 0 <= k < |picks| ==> InBounds(gen.board, picks[k].0, picks[k].1)
    ensures r.Some? ==> WellPlaced(gen, picks, r.value)
    ensures r.None? ==> |Drawn(picks, |picks|)| < Target(gen.numMines, gen.hasSupermine)
  {
    var b := gen.board;
    var placed := 0;
    var next := 0;
    if gen.hasSupermine {
      if |picks| == 0 {
        assert Drawn(picks, 0) == {};
        return None;
      }
      PlacementStart(gen, picks);
      var (x, y) := picks[0];
      b := Set(b, x, y, SetValue(b[x][y], SUPER_MINE));
      placed := 1;
      next := 1;
    } else {
      PlacementStart(gen, picks);
    }
    while placed < gen.numMines
      invariant Placement(gen, picks, b, next, placed)
      invariant placed <= Target(gen.numMines, gen.hasSupermine)
      decreases |picks| - next
    {
      if next == |picks| {
        return None;
      }
      var (x, y) := picks[next];
      if b[x][y].value == 0 {
        PlacementDrawEmpty(gen, picks, b, next, placed);
        b := Set(b, x, y, SetValue(b[x][y], MINE));
        placed := placed + 1;
      } else {
        PlacementDrawTaken(gen, picks, b, next, placed);
      }
      next := next + 1;
    }
    PlacementDone(gen, picks, b, next, placed);
    return Some(b);
  }

  // ---------------------------------------------------------------------------
  // The mine-location record

  /** One record line: position and whether it is the supermine. */
  datatype MineEntry = MineEntry(row: int, col: int, isSupermine: bool)

  /** Entries for the mine-bearing squares of row `i` from column `j` on. */
  function RowEntries(b: Board, i: int, j: int): seq<MineEntry>
    requires Square(b) && 0 <= i < |b| && 0 <= j <= |b|
    decreases |b| - j
  {
    if j == |b| then []
    else
      var here := if b[i][j].value != 0 then [MineEntry(i, j, b[i][j].value == SUPER_MINE)] else [];
      here + RowEntries(b, i, j + 1)
  }

  /** Entries for rows `i` onwards, row by row. */
  function EntriesFrom(b: Board, i: int): seq<MineEntry>
    requires Square(b) && 0 <= i <= |b|
    decreases |b| - i
  {
    if i == |b| then [] else RowEntries(b, i, 0) + EntriesFrom(b, i + 1)
  }

  /** Row-major order of positions. */
  predicate Before(e: MineEntry, f: MineEntry) {
    e.row < f.row || (e.row == f.row && e.col < f.col)
  }

  /** The entry the record holds for a non-empty square. */
  predicate Describes(b: Board, e: MineEntry)
    requires Square(b)
  {
    InBounds(b, e.row, e.col) && b[e.row][e.col].value != 0
    && e.isSupermine == (b[e.row][e.col].value == SUPER_MINE)
  }

  lemma {:induction false} RowEntriesFacts(b: Board, i: int, j: int)
    requires Square(b) && 0 <= i < |b| && 0 <= j <= |b|
    ensures forall e :: e in RowEntries(b, i, j) <==> Describes(b, e) && e.row == i && j <= e.col
    ensures forall k :: 0 <= k < |RowEntries(b, i, j)| ==> RowEntries(b, i, j)[k].row == i
    ensures forall k, k' :: 0 <= k < k' < |RowEntries(b, i, j)| ==>
              RowEntries(b, i, j)[k].col < RowEntries(b, i, j)[k'].col
    ensures |RowEntries(b, i, j)| == CountRow(b[i][j..], NonEmpty)
    decreases |b| - j
  {
    if j < |b| {
      RowEntriesFacts(b, i, j + 1);
      assert b[i][j..][1..] == b[i][j + 1..];
    }
  }

  lemma {:induction false} EntriesFromFacts(b: Board, i: int)
    requires Square(b) && 0 <= i <= |b|
    ensures forall e :: e in EntriesFrom(b, i) <==> Describes(b, e) && i <= e.row
    ensures forall k, k' :: 0 <= k < k' < |EntriesFrom(b, i)| ==>
              Before(EntriesFrom(b, i)[k], EntriesFrom(b, i)[k'])
    ensures |EntriesFrom(b, i)| == Count(b[i..], NonEmpty)
    decreases |b| - i
  {
    if i < |b| {
      RowEntriesFacts(b, i, 0);
      EntriesFromFacts(b, i + 1);
      assert b[i][0..] == b[i];
      assert b[i..][1..] == b[i + 1..];
      var here := RowEntries(b, i, 0);
      var rest := EntriesFrom(b, i + 1);
      assert forall k :: 0 <= k < |rest| ==> rest[k] in rest;
    }
  }

  /** The record's entries: exactly the non-empty squares, once each, in row-major order. */
  function MineEntries(b: Board): (es: seq<MineEntry>)
    requires Square(b)
    ensures forall e :: e in es <==> Describes(b, e)
    ensures forall k, k' :: 0 <= k < k' < |es| ==> Before(es[k], es[k'])
    ensures |es| == Count(b, NonEmpty)
  {
    EntriesFromFacts(b, 0);
    assert b[0..] == b;
    EntriesFrom(b, 0)
  }

  /** `i,j,s` with s = 1 for the supermine and 0 otherwise. */
  function MineLine(e: MineEntry): string {
    IntToString(e.row) + "," + IntToString(e.col) + "," + (if e.isSupermine then "1" else "0")
  }

  /** The lines of mines.txt, one per mine-bearing square. */
  function MineRecorder(b: Board): (lines: seq<string>)
    requires Square(b)
    ensures |lines| == Count(b, NonEmpty)
    ensures forall k :: 0 <= k < |lines| ==> lines[k] == MineLine(MineEntries(b)[k])
  {
    var es := MineEntries(b);
    seq(|es|, k requires 0 <= k < |es| => MineLine(es[k]))
  }

  // ---------------------------------------------------------------------------
  // Reading a record line back

  /** Parses `i,j,s` back into an entry. */
  function ParseMineLine(line: string): Option<MineEntry> {
    var parts := Split(line, ',');
    if |parts| != 3 then None
    else
      match (ParseInt(parts[0]), ParseInt(parts[1]), parts[2])
      case (Some(i), Some(j), "0") => Some(MineEntry(i, j, false))
      case (Some(i), Some(j), "1") => Some(MineEntry(i, j, true))
      case _ => None
  }

  /** Every line of the record reads back as the entry it was written from. */
  lemma ParseMineLineOfMineLine(e: MineEntry)
    requires INT_MIN <= e.row <= INT_MAX && INT_MIN <= e.col <= INT_MAX
    ensures ParseMineLine(MineLine(e)) == Some(e)
  {
    var a := IntToString(e.row);
    var c := IntToString(e.col);
    var s := if e.isSupermine then "1" else "0";
    CharNotInNumber(e.row, ',');
    CharNotInNumber(e.col, ',');
    assert MineLine(e) == a + [','] + (c + [','] + s);
    SplitFirst(a, ',', c + [','] + s);
    SplitFirst(c, ',', s);
    SplitNoSep(s, ',');
    ParseIntOfIntToString(e.row);
    ParseIntOfIntToString(e.col);
  }
}

=== FILE: description_reader.dfy ===
/**
 * Validation of a scenario description: four lines giving the difficulty level, the number
 * of mines, the time limit in seconds and whether a supermine is present (0 or 1). The
 * input is the sequence of lines the file's reader returns; the exceptions of the Java code
 * become the error kinds of a `Result`.
 */
module DescriptionReader {
  import opened Wrappers
  import opened Text

  datatype GameDescription = GameDescription(
    difficultyLevel: int,
    numMines: int,
    maxTime: int,
    hasSupermine: bool)

  /** The four lines, in file order. */
  datatype Field = DifficultyLevel | NumMines | MaxTime | Supermine

  /** The distinct out-of-range conditions, each with its own message in the Java code. */
  datatype ValueProblem = BadLevel | MinesOutOfRange | TimeOutOfRange | BadSupermine | SupermineOnLevel1

  datatype ReadError =
    | InvalidDescription(missing: Field)   // the file ends before this line
    | InvalidValue(problem: ValueProblem)
    | NumberFormat(field: Field)           // `Integer.parseInt` rejected the line

  function FieldAt(k: nat): Field
    requires k < 4
  {
    [DifficultyLevel, NumMines, MaxTime, Supermine][k]
  }

  function FieldIndex(f: Field): (k: nat)
    ensures k < 4 && FieldAt(k) == f
  {
    match f
    case DifficultyLevel => 0
    case NumMines => 1
    case MaxTime => 2
    case Supermine => 3
  }

  /** The level line is present, parses, and is 1 or 2. */
  predicate LevelPasses(lines: seq<string>) {
    1 <= |lines| && ParseInt(lines[0]).Some? && ParseInt(lines[0]).value in {1, 2}
  }

  /** The level and mine-count lines are present, parse, and pass their checks. */
  predicate LevelAndMinesPass(lines: seq<string>) {
    && LevelPasses(lines) && 2 <= |lines|
    && ParseInt(lines[1]).Some? && MinesAllowed(ParseInt(lines[0]).value, ParseInt(lines[1]).value)
  }

  /** The level, mine-count and time lines are present, parse, and pass their checks. */
  predicate FirstThreePass(lines: seq<string>) {
    && LevelAndMinesPass(lines) && 3 <= |lines|
    && ParseInt(lines[2]).Some? && TimeAllowed(ParseInt(lines[0]).value, ParseInt(lines[2]).value)
  }

  predicate MinesAllowed(level: int, n: int) {
    if level == 1 then 9 <= n <= 11 else 35 <= n <= 45
  }

  predicate TimeAllowed(level: int, t: int) {
    if level == 1 then 120 <= t <= 180 else 240 <= t <= 360
  }

  /** The descriptions the game accepts. */
  predicate Acceptable(d: GameDescription) {
    && (d.difficultyLevel == 1 || d.difficultyLevel == 2)
    && MinesAllowed(d.difficultyLevel, d.numMines)
    && TimeAllowed(d.difficultyLevel, d.maxTime)
    && (d.hasSupermine ==> d.difficultyLevel == 2)
  }

  /** All four lines present and parsed, and the values they give acceptable. */
  predicate WellFormed(lines: seq<string>) {
    && 4 <= |lines|
    && ParseInt(lines[0]).Some? && ParseInt(lines[1]).Some? && ParseInt(lines[2]).Some?
    && (ParseInt(lines[3]) == Some(0) || ParseInt(lines[3]) == Some(1))
    && Acceptable(GameDescription(ParseInt(lines[0]).value, ParseInt(lines[1]).value,
                                  ParseInt(lines[2]).value, ParseInt(lines[3]) == Some(1)))
  }

  /**
   * `readDescription`: first the presence of all four lines, then level, mines, time and
   * supermine, each parsed and range-checked in that order; the first failure is reported.
   * Lines after the fourth are never read.
   */
  function ReadDescription(lines: seq<string>): (r: Result<GameDescription, ReadError>)
    ensures |lines| < 4 ==> r == Failure(InvalidDescription(FieldAt(|lines|)))
    ensures r.Success? <==> WellFormed(lines)
    ensures r.Success? ==> Acceptable(r.value)
    ensures r.Success? ==>
      && ParseInt(lines[0]) == Some(r.value.difficultyLevel)
      && ParseInt(lines[1]) == Some(r.value.numMines)
      && ParseInt(lines[2]) == Some(r.value.maxTime)
      && (ParseInt(lines[3]) == Some(1) <==> r.value.hasSupermine)
      && (ParseInt(lines[3]) == Some(0) <==> !r.value.hasSupermine)
    ensures 4 <= |lines| && ParseInt(lines[0]).Some? && ParseInt(lines[0]).value !in {1, 2} ==>
      r == Failure(InvalidValue(BadLevel))
    ensures (&& 4 <= |lines| && LevelPasses(lines)
             && ParseInt(lines[1]).Some? && !MinesAllowed(ParseInt(lines[0]).value, ParseInt(lines[1]).value))
            ==> r == Failure(InvalidValue(MinesOutOfRange))
    ensures (&& 4 <= |lines| && LevelAndMinesPass(lines)
             && ParseInt(lines[2]).Some? && !TimeAllowed(ParseInt(lines[0]).value, ParseInt(lines[2]).value))
            ==> r == Failure(InvalidValue(TimeOutOfRange))
    ensures (4 <= |lines| && FirstThreePass(lines) && ParseInt(lines[3]).Some?)
            ==> (ParseInt(lines[3]).value !in {0, 1} ==> r == Failure(InvalidValue(BadSupermine)))
                && (ParseInt(lines[0]).value == 1 && ParseInt(lines[3]).value == 1 ==>
                      r == Failure(InvalidValue(SupermineOnLevel1)))
    ensures r.Failure? && r.error.NumberFormat? ==> 4 <= |lines| && ParseInt(lines[FieldIndex(r.error.field)]).None?
    ensures r.Failure? && r.error.InvalidDescription? ==> |lines| < 4
    ensures 4 <= |lines| && ParseInt(lines[0]).None? ==> r == Failure(NumberFormat(DifficultyLevel))
    ensures 4 <= |lines| && LevelPasses(lines) && ParseInt(lines[1]).None? ==> r == Failure(NumberFormat(NumMines))
    ensures 4 <= |lines| && LevelAndMinesPass(lines) && ParseInt(lines[2]).None? ==> r == Failure(NumberFormat(MaxTime))
    ensures 4 <= |lines| && FirstThreePass(lines) && ParseInt(lines[3]).None? ==> r == Failure(NumberFormat(Supermine))
  {
    if |lines| < 1 then Failure(InvalidDescription(DifficultyLevel))
    else if |lines| < 2 then Failure(InvalidDescription(NumMines))
    else if |lines| < 3 then Failure(InvalidDescription(MaxTime))
    else if |lines| < 4 then Failure(InvalidDescription(Supermine))
    else
      match ParseInt(lines[0])
      case None => Failure(NumberFormat(DifficultyLevel))
      case Some(level) =>
        if level != 1 && level != 2 then Failure(InvalidValue(BadLevel))
        else
          match ParseInt(lines[1])
          case None => Failure(NumberFormat(NumMines))
          case Some(mines) =>
            if !MinesAllowed(level, mines) then Failure(InvalidValue(MinesOutOfRange))
            else
              match ParseInt(lines[2])
              case None => Failure(NumberFormat(MaxTime))
              case Some(time) =>
                if !TimeAllowed(level, time) then Failure(InvalidValue(TimeOutOfRange))
                else
                  match ParseInt(lines[3])
                  case None => Failure(NumberFormat(Supermine))
                  case Some(supermine) =>
                    if supermine != 0 && supermine != 1 then Failure(InvalidValue(BadSupermine))
                    else if level == 1 && supermine != 0 then Failure(InvalidValue(SupermineOnLevel1))
                    else Success(GameDescription(level, mines, time, supermine == 1))
  }

  /** Only the first four lines matter. */
  lemma ExtraLinesIgnored(lines: seq<string>, extra: seq<string>)
    requires |lines| == 4
    ensures ReadDescription(lines + extra) == ReadDescription(lines)
  {
    var all := lines + extra;
    assert all[0] == lines[0] && all[1] == lines[1] && all[2] == lines[2] && all[3] == lines[3];
  }

  /** The file text of a description: one decimal number per line. */
  function DescriptionLines(d: GameDescription): seq<string> {
    [IntToString(d.difficultyLevel), IntToString(d.numMines), IntToString(d.maxTime),
     if d.hasSupermine then "1" else "0"]
  }

  /** Every acceptable description, written out, is read back as itself. */
  lemma ReadDescriptionComplete(d: GameDescription)
    requires Acceptable(d)
    ensures ReadDescription(DescriptionLines(d)) == Success(d)
  {
    ParseIntOfIntToString(d.difficultyLevel);
    ParseIntOfIntToString(d.numMines);
    ParseIntOfIntToString(d.maxTime);
    ParseIntOfIntToString(if d.hasSupermine then 1 else 0);
  }

  /** The reader accepts exactly the acceptable descriptions written one number per line. */
  lemma ReadDescriptionSound(lines: seq<string>)
    requires ReadDescription(lines).Success?
    ensures Acceptable(ReadDescription(lines).value)
    ensures ReadDescription(DescriptionLines(ReadDescription(lines).value)) == ReadDescription(lines)
  {
    ReadDescriptionComplete(ReadDescription(lines).value);
  }
}

=== FILE: file_manager.dfy ===
/**
 * The bounded round history: at most five `round-k.txt` files in the `rounds` directory,
 * each holding the four-line summary of one finished round. The directory is a map from
 * file name to (last-modified time, content); the write time is supplied by the caller.
 */
module FileManager {
  import opened Wrappers
  import opened Text

  const MAX_ROUNDS: nat := 5
  const FILE_PREFIX: string := "round-"
  const FILE_EXTENSION: string := ".txt"

  /** What the round engine hands over when a round ends. */
  datatype RoundSummary = RoundSummary(numMines: int, attempts: int, totalGameTime: int, winner: string)

  datatype FileEntry = FileEntry(lastModified: int, content: string)

  type Directory = map<string, FileEntry>

  /** The name filter applied when listing the directory. */
  predicate IsRoundFileName(name: string) {
    StartsWith(name, FILE_PREFIX) && EndsWith(name, FILE_EXTENSION)
  }

  /** The files that count as history entries. */
  function History(dir: Directory): set<string> {
    set name | name in dir && IsRoundFileName(name)
  }

  function RoundFileName(id: int): string {
    FILE_PREFIX + IntToString(id) + FILE_EXTENSION
  }

  const MINES_LABEL: string := "Total number of mines: "
  const ATTEMPTS_LABEL: string := "Total number of attempts (left clicks): "
  const TIME_LABEL: string := "Total game time: "
  const WINNER_LABEL: string := "Winner: "

  /** The four lines of a round file, in order. */
  function RecordLines(s: RoundSummary): (lines: seq<string>)
    ensures |lines| == 4
  {
    [ MINES_LABEL + IntToString(s.numMines) + ".",
      ATTEMPTS_LABEL + IntToString(s.attempts) + ".",
      TIME_LABEL + IntToString(s.totalGameTime) + " secs.",
      WINNER_LABEL + s.winner + "." ]
  }

  /** Each line followed by a newline, as the writer emits them. */
  function JoinLines(lines: seq<string>): string {
    if |lines| == 0 then "" else lines[0] + "\n" + JoinLines(lines[1..])
  }

  /** The content of a round file. */
  function RoundRecord(s: RoundSummary): string {
    JoinLines(RecordLines(s))
  }

  /** Reads a round file back into the summary it records. */
  function ParseRoundRecord(content: string): Option<RoundSummary> {
    var lines := Split(content, '\n');
    if |lines| != 5 || lines[4] != "" then None
    else
      match (Between(lines[0], MINES_LABEL, "."), Between(lines[1], ATTEMPTS_LABEL, "."),
             Between(lines[2], TIME_LABEL, " secs."), Between(lines[3], WINNER_LABEL, "."))
      case (Some(m), Some(a), Some(t), Some(w)) =>
        (match (ParseInt(m), ParseInt(a), ParseInt(t))
         case (Some(mines), Some(attempts), Some(time)) => Some(RoundSummary(mines, attempts, time, w))
         case _ => None)
      case _ => None
  }

  /** Newline-free lines, joined, split back into themselves and an empty tail. */
  lemma {:induction false} SplitJoinLines(lines: seq<string>)
    requires forall k :: 0 <= k < |lines| ==> '\n' !in lines[k]
    ensures Split(JoinLines(lines), '\n') == lines + [""]
    decreases |lines|
  {
    if |lines| > 0 {
      SplitJoinLines(lines[1..]);
      assert JoinLines(lines) == lines[0] + ['\n'] + JoinLines(lines[1..]);
      SplitFirst(lines[0], '\n', JoinLines(lines[1..]));
      assert [lines[0]] + (lines[1..] + [""]) == lines + [""];
    }
  }

  lemma LabelsHaveNoNewline()
    ensures '\n' !in MINES_LABEL && '\n' !in ATTEMPTS_LABEL && '\n' !in TIME_LABEL
    ensures '\n' !in "." && '\n' !in " secs."
  {
  }

  /** A labelled number line holds no newline. */
  lemma NoNewlineInField(heading: string, n: int, tail: string)
    requires '\n' !in heading && '\n' !in tail
    ensures '\n' !in heading + IntToString(n) + tail
  {
    CharNotInNumber(n, '\n');
  }

  /** The record format is unambiguous: every summary of Java `int` fields reads back as itself. */
  lemma {:induction false} ParseRoundRecordOfRoundRecord(s: RoundSummary)
    requires INT_MIN <= s.numMines <= INT_MAX && INT_MIN <= s.attempts <= INT_MAX
    requires INT_MIN <= s.totalGameTime <= INT_MAX
    requires '\n' !in s.winner
    ensures ParseRoundRecord(RoundRecord(s)) == Some(s)
  {
    var lines := RecordLines(s);
    LabelsHaveNoNewline();
    NoNewlineInField(MINES_LABEL, s.numMines, ".");
    NoNewlineInField(ATTEMPTS_LABEL, s.attempts, ".");
    NoNewlineInField(TIME_LABEL, s.totalGameTime, " secs.");
    SplitJoinLines(lines);
    BetweenOfFramed(MINES_LABEL, IntToString(s.numMines), ".");
    BetweenOfFramed(ATTEMPTS_LABEL, IntToString(s.attempts), ".");
    BetweenOfFramed(TIME_LABEL, IntToString(s.totalGameTime), " secs.");
    BetweenOfFramed(WINNER_LABEL, s.winner, ".");
    ParseIntOfIntToString(s.numMines);
    ParseIntOfIntToString(s.attempts);
    ParseIntOfIntToString(s.totalGameTime);
  }

  // ---------------------------------------------------------------------------
  // Choosing the file to write

  /** `name` is a history entry last modified no later than any other. */
  ghost predicate IsOldest(dir: Directory, name: string) {
    name in History(dir)
    && forall other :: other in History(dir) ==> dir[name].lastModified <= dir[other].lastModified
  }

  lemma {:induction false} OldestExists(dir: Directory, names: set<string>)
    requires names != {} && names <= dir.Keys
    ensures exists n :: n in names && forall m :: m in names ==> dir[n].lastModified <= dir[m].lastModified
    decreases |names|
  {
    var x :| x in names;
    var rest := names - {x};
    if rest != {} {
      OldestExists(dir, rest);
      var y :| y in rest && forall m :: m in rest ==> dir[y].lastModified <= dir[m].lastModified;
      if dir[x].lastModified < dir[y].lastModified {
        assert forall m :: m in names ==> dir[x].lastModified <= dir[m].lastModified;
      } else {
        assert forall m :: m in names ==> dir[y].lastModified <= dir[m].lastModified;
      }
    } else {
      assert names == {x};
    }
  }

  /**
   * One of the oldest entries. The Java code sorts by modification time and takes the first,
   * so among equally old files the listing order decides; the model leaves that choice open.
   */
  ghost function Oldest(dir: Directory): (name: string)
    requires History(dir) != {}
    ensures IsOldest(dir, name)
  {
    OldestExists(dir, History(dir));
    var name :| name in History(dir)
      && forall m :: m in History(dir) ==> dir[name].lastModified <= dir[m].lastModified;
    name
  }

  /** The file `writeCurrentRound` writes to. */
  ghost function Destination(dir: Directory): (name: string)
    ensures |History(dir)| < MAX_ROUNDS ==> name == RoundFileName(|History(dir)| + 1)
    ensures |History(dir)| >= MAX_ROUNDS ==> IsOldest(dir, name)
    ensures IsRoundFileName(name)
  {
    var k := |History(dir)|;
    if k < MAX_ROUNDS then RoundFileNameIsHistoryName(k + 1); RoundFileName(k + 1) else Oldest(dir)
  }

  lemma RoundFileNameIsHistoryName(id: int)
    ensures IsRoundFileName(RoundFileName(id))
  {
    var name := RoundFileName(id);
    assert name[..|FILE_PREFIX|] == FILE_PREFIX;
    assert name[|name| - |FILE_EXTENSION|..] == FILE_EXTENSION;
  }

  lemma RoundFileNameInjective(a: int, b: int)
    requires RoundFileName(a) == RoundFileName(b)
    ensures a == b
  {
    BetweenOfFramed(FILE_PREFIX, IntToString(a), FILE_EXTENSION);
    BetweenOfFramed(FILE_PREFIX, IntToString(b), FILE_EXTENSION);
    IntToStringInjective(a, b);
  }

  /**
   * Stores the summary of a finished round, stamped `now`: a new `round-(k+1).txt` while
   * fewer than five entries exist, otherwise over the oldest entry. No other file changes.
   */
  ghost function WriteCurrentRound(dir: Directory, now: int, s: RoundSummary): (dir': Directory)
    ensures dir'.Keys == dir.Keys + {Destination(dir)}
    ensures dir'[Destination(dir)] == FileEntry(now, RoundRecord(s))
    ensures forall name :: name in dir && name != Destination(dir) ==> dir'[name] == dir[name]
    ensures History(dir') == History(dir) + {Destination(dir)}
  {
    dir[Destination(dir) := FileEntry(now, RoundRecord(s))]
  }

  // ---------------------------------------------------------------------------
  // A sequence of rounds

  /** Writes the summaries in order, each stamped with its own time. */
  ghost function WriteAll(dir: Directory, writes: seq<(int, RoundSummary)>): Directory
    decreases |writes|
  {
    if |writes| == 0 then dir
    else WriteAll(WriteCurrentRound(dir, writes[0].0, writes[0].1), writes[1..])
  }

  /** The names `round-1.txt` .. `round-k.txt`. */
  ghost function FirstNames(k: nat): set<string> {
    set id | 1 <= id <= k :: RoundFileName(id)
  }

  lemma FirstNamesStep(k: nat)
    ensures FirstNames(k + 1) == FirstNames(k) + {RoundFileName(k + 1)}
  {
  }

  lemma {:induction false} FirstNamesSize(k: nat)
    ensures |FirstNames(k)| == k
    decreases k
  {
    if k > 0 {
      FirstNamesSize(k - 1);
      FirstNamesStep(k - 1);
      if RoundFileName(k) in FirstNames(k - 1) {
        var id :| 1 <= id <= k - 1 && RoundFileName(id) == RoundFileName(k);
        RoundFileNameInjective(id, k);
      }
    }
  }

  function Min(a: int, b: int): int {
    if a < b then a else b
  }

  /**
   * Starting from a directory whose history is `round-1.txt` .. `round-k.txt`, `n` more
   * rounds leave exactly `round-1.txt` .. `round-m.txt` with m = min(k + n, 5).
   */
  lemma {:induction false} WriteAllKeepsFirstNames(dir: Directory, k: nat, writes: seq<(int, RoundSummary)>)
    requires k <= MAX_ROUNDS && History(dir) == FirstNames(k)
    ensures History(WriteAll(dir, writes)) == FirstNames(Min(k + |writes|, MAX_ROUNDS))
    decreases |writes|
  {
    if |writes| > 0 {
      FirstNamesSize(k);
      var dir1 := WriteCurrentRound(dir, writes[0].0, writes[0].1);
      assert WriteAll(dir, writes) == WriteAll(dir1, writes[1..]);
      if k < MAX_ROUNDS {
        assert Destination(dir) == RoundFileName(k + 1);
        FirstNamesStep(k);
        assert History(dir1) == FirstNames(k + 1);
        WriteAllKeepsFirstNames(dir1, k + 1, writes[1..]);
      } else {
        assert Destination(dir) in History(dir);
        assert History(dir1) == FirstNames(k);
        WriteAllKeepsFirstNames(dir1, k, writes[1..]);
      }
    }
  }

  /** From an empty directory, n rounds leave min(n, 5) history entries. */
  lemma {:induction false} HistoryBounded(writes: seq<(int, RoundSummary)>)
    ensures |History(WriteAll(map[], writes))| == Min(|writes|, MAX_ROUNDS)
  {
    var empty: Directory := map[];
    assert History(empty) == {};
    assert FirstNames(0) == {};
    WriteAllKeepsFirstNames(empty, 0, writes);
    FirstNamesSize(Min(|writes|, MAX_ROUNDS));
  }
}

=== FILE: game_logic.dfy ===
/**
 * The round engine: opening squares (with the clipped adjacency count and the flood fill),
 * losing on a mine, the win equation, flags under a budget, the one-shot supermine rule,
 * the forfeit (`Solution`) and the one-second countdown, each a pure transition of an
 * immutable game state. Ending a round hands a summary to the round history; the model
 * appends it to `records`.
 */
module GameLogic {
  import opened Wrappers
  import opened Tiles
  import opened Boards
  import opened FileManager
  import opened Text

  datatype Game = Game(
    board: Board,
    numMines: int,
    markedTiles: int,               // flags in use
    numRevealed: int,               // opened squares without a mine
    maxTime: int,
    timeLeft: int,
    gameOver: bool,
    gameWon: bool,
    gameLost: bool,
    attempts: int,                  // left clicks
    flagSuperMine: bool,            // the supermine rule has fired
    startedTimer: bool,
    records: seq<RoundSummary>)     // summaries handed to the round history, oldest first

  /** A new round over `board`: no flags, nothing opened, the full time available. */
  function NewGame(board: Board, numMines: int, maxTime: int): (g: Game)
    ensures g.board == board && g.numMines == numMines && g.maxTime == maxTime && g.timeLeft == maxTime
    ensures g.markedTiles == 0 && g.numRevealed == 0 && g.attempts == 0 && g.records == []
    ensures !g.gameOver && !g.gameWon && !g.gameLost && !g.flagSuperMine && !g.startedTimer
  {
    Game(board, numMines, 0, 0, maxTime, maxTime, false, false, false, 0, false, false, [])
  }

  // ---------------------------------------------------------------------------
  // Invariants

  /** No square is open or flagged: the state every generated board starts in. */
  ghost predicate Pristine(b: Board)
    requires Square(b)
  {
    forall i, j :: InBounds(b, i, j) ==> !b[i][j].isRevealed && !b[i][j].isFlagged
  }

  ghost predicate NoFlagOnOpen(b: Board)
    requires Square(b)
  {
    forall i, j :: InBounds(b, i, j) ==> !(b[i][j].isRevealed && b[i][j].isFlagged)
  }

  /** Every open safe square shows the number of mines around it. */
  ghost predicate AdjacencyShown(b: Board)
    requires Square(b)
  {
    forall i, j :: InBounds(b, i, j) && b[i][j].isRevealed && !IsMine(b[i][j]) ==>
      b[i][j].adjacentMines == AdjacentMines(b, i, j)
  }

  /**
   * The engine's invariant: `numRevealed` counts the open safe squares; `markedTiles`
   * never exceeds `numMines`, is at least the number of flags and equals it while the
   * round is live; no flag sits on an open square; a round is over exactly when it is won
   * or lost, and a won round satisfied the win equation with time left, while a live round
   * with a safe square open does not satisfy it (every safe opening checks for the win);
   * the clock stays within 0..maxTime.
   */
  ghost predicate Valid(g: Game) {
    && Square(g.board)
    && g.numRevealed == Count(g.board, RevealedSafe)
    && Count(g.board, Flagged) <= g.markedTiles <= g.numMines
    && (!g.gameOver ==> g.markedTiles == Count(g.board, Flagged))
    && NoFlagOnOpen(g.board)
    && AdjacencyShown(g.board)
    && (g.gameOver <==> g.gameWon || g.gameLost)
    && (g.gameWon ==> WinEquation(g))
    && (!g.gameOver && g.numRevealed > 0 ==> !WinEquation(g))
    && 0 <= g.timeLeft <= g.maxTime
  }

  /** The test of `CheckIfGameWon`: open safe squares and mines fill the board, and time is left. */
  predicate WinEquation(g: Game) {
    g.numRevealed + g.numMines == |g.board| * |g.board| && g.timeLeft > 0
  }

  /**
   * Once a safe square is open, a round that was not lost is won exactly when the win
   * equation holds. A round with no safe square open is never won: the win is only checked
   * after a safe square opens.
   */
  lemma SafeOpenDecidesWin(g: Game, r: int, c: int)
    requires Valid(g) && InBounds(g.board, r, c)
    ensures g.board[r][c].isRevealed && !IsMine(g.board[r][c]) && !g.gameLost ==> (g.gameWon <==> WinEquation(g))
  {
    var t := g.board[r][c];
    if t.isRevealed && !IsMine(t) {
      CountSet(g.board, r, c, t.(isRevealed := false), RevealedSafe);
    }
  }

  /** At most one square carries the supermine. */
  ghost predicate UniqueSuper(b: Board)
    requires Square(b)
  {
    forall i, j, i', j' ::
      (InBounds(b, i, j) && InBounds(b, i', j') && IsSuperMine(b[i][j]) && IsSuperMine(b[i'][j'])) ==> i == i' && j == j'
  }

  /** The board as generated: `numMines` mine-bearing squares, at most one of them the supermine. */
  ghost predicate Layout(g: Game) {
    Square(g.board) && Count(g.board, MineBearing) == g.numMines && UniqueSuper(g.board)
  }

  /** A round that starts on an untouched board satisfies the engine's invariant. */
  lemma NewGameValid(board: Board, numMines: int, maxTime: int)
    requires Square(board) && Pristine(board) && 0 <= numMines && 0 <= maxTime
    ensures Valid(NewGame(board, numMines, maxTime))
  {
    CountNone(board, RevealedSafe);
    CountNone(board, Flagged);
  }

  /** The winner named in the round's summary. */
  function Winner(g: Game): (w: string)
    ensures w == "Player" <==> g.gameWon
    ensures w == "PC" <==> !g.gameWon
    ensures '\n' !in w
  {
    if g.gameWon then "Player" else "PC"
  }

  /** The summary `EndGame` hands over: mines, left clicks, seconds used and the winner. */
  function Summary(g: Game): RoundSummary {
    RoundSummary(g.numMines, g.attempts, g.maxTime - g.timeLeft, Winner(g))
  }

  ghost predicate MinesKept(b: Board, b': Board)
    requires Square(b) && Square(b') && |b| == |b'|
  {
    forall i, j :: InBounds(b, i, j) && IsMine(b[i][j]) ==> b'[i][j] == b[i][j]
  }

  ghost predicate SafeSquaresKept(b: Board, b': Board)
    requires Square(b) && Square(b') && |b| == |b'|
  {
    forall i, j :: InBounds(b, i, j) && !IsMine(b[i][j]) ==> b'[i][j] == b[i][j]
  }

  ghost predicate AllMinesOpen(b: Board)
    requires Square(b)
  {
    forall i, j :: InBounds(b, i, j) && IsMine(b[i][j]) ==> b[i][j].isRevealed
  }

  /**
   * What every opening step keeps: contents, open squares, the counters it does not own,
   * and the round's outcome once decided; a summary is recorded exactly when the round
   * ends during the step.
   */
  ghost predicate Kept(g: Game, g': Game) {
    && SameLayout(g.board, g'.board)
    && OpenSquaresKept(g.board, g'.board)
    && g'.numMines == g.numMines && g'.maxTime == g.maxTime && g'.timeLeft == g.timeLeft
    && g'.attempts == g.attempts && g'.flagSuperMine == g.flagSuperMine
    && g'.startedTimer == g.startedTimer
    && (g.gameOver ==> g'.gameOver && g'.gameWon == g.gameWon && g'.gameLost == g.gameLost
                       && g'.numRevealed == g.numRevealed && g'.markedTiles == g.markedTiles)
    && g'.records == g.records + (if !g.gameOver && g'.gameOver then [Summary(g')] else [])
  }

  lemma KeptTransitive(g0: Game, g1: Game, g2: Game)
    requires Kept(g0, g1) && Kept(g1, g2)
    ensures Kept(g0, g2)
  {
    SameLayoutTransitive(g0.board, g1.board, g2.board);
  }

  lemma AdjacencyOfSameLayout(b: Board, b': Board)
    requires SameLayout(b, b')
    ensures forall r, c :: AdjacentMines(b, r, c) == AdjacentMines(b', r, c)
  {
    forall r, c
      ensures AdjacentMines(b, r, c) == AdjacentMines(b', r, c)
    {
      AdjacentMinesOfSameLayout(b, b', r, c);
    }
  }

  /**
   * On a generated board the win equation of `CheckIfGameWon` (open squares plus mines
   * fill the board) holds exactly when every safe square is open.
   */
  lemma WinEquationMeansAllSafeOpen(g: Game)
    requires Valid(g) && Layout(g)
    ensures g.numRevealed + g.numMines == |g.board| * |g.board| <==>
              forall i, j :: InBounds(g.board, i, j) && !IsMine(g.board[i][j]) ==> g.board[i][j].isRevealed
  {
    var b := g.board;
    CountComplement(b);
    CellsOfSquare(b);
    CountMono(b, RevealedSafe, b, Safe);
    if g.numRevealed + g.numMines == |b| * |b| {
      CountEqForcesConverse(b, RevealedSafe, b, Safe);
    }
    if forall i, j :: InBounds(b, i, j) && !IsMine(b[i][j]) ==> b[i][j].isRevealed {
      CountMono(b, Safe, b, RevealedSafe);
    }
  }

  /** A won round on a generated board has every safe square open. */
  lemma WonOpensAllSafe(g: Game)
    requires Valid(g) && Layout(g) && g.gameWon
    ensures forall i, j :: InBounds(g.board, i, j) && !IsMine(g.board[i][j]) ==> g.board[i][j].isRevealed
  {
    WinEquationMeansAllSafeOpen(g);
  }

  // ---------------------------------------------------------------------------
  // Ending a round

  /** The summary of a round, once written to the history, reads back as itself. */
  lemma SummaryRecordRoundTrip(g: Game)
    requires INT_MIN <= g.numMines <= INT_MAX && INT_MIN <= g.attempts <= INT_MAX
    requires INT_MIN <= g.maxTime - g.timeLeft <= INT_MAX
    ensures ParseRoundRecord(RoundRecord(Summary(g))) == Some(Summary(g))
  {
    ParseRoundRecordOfRoundRecord(Summary(g));
  }

  /** `EndGame`: the round is over (which stops the clock) and its summary is handed over. */
  function EndGame(g: Game): (g': Game)
    ensures g'.gameOver && g'.records == g.records + [Summary(g')]
    ensures g'.board == g.board && g'.gameWon == g.gameWon && g'.gameLost == g.gameLost
    ensures g' == g.(gameOver := true, records := g'.records)
  {
    var g1 := g.(gameOver := true);
    g1.(records := g.records + [Summary(g1)])
  }

  /** `CheckIfGameWon`: every safe square open (by count) with time remaining wins the round. */
  function CheckIfGameWon(g: Game): (g': Game)
    ensures g'.gameWon <==> g.gameWon || (g.numRevealed + g.numMines == |g.board| * |g.board| && g.timeLeft > 0)
    ensures g.numRevealed + g.numMines == |g.board| * |g.board| && g.timeLeft > 0 ==>
              g'.gameOver && g'.records == g.records + [Summary(g')] && Summary(g').winner == "Player"
    ensures !(g.numRevealed + g.numMines == |g.board| * |g.board| && g.timeLeft > 0) ==> g' == g
  {
    if g.numRevealed + g.numMines == |g.board| * |g.board| && g.timeLeft > 0
    then EndGame(g.(gameWon := true))
    else g
  }

  /** Opening a mine: every mine is shown and the round is lost. */
  function HitMine(g: Game): (g': Game)
    requires Valid(g) && !g.gameOver
    ensures Valid(g') && Kept(g, g')
    ensures g'.gameLost && g'.gameOver && !g'.gameWon
    ensures AllMinesOpen(g'.board) && SafeSquaresKept(g.board, g'.board)
    ensures ClosedKept(g.board, g'.board)
    ensures g'.numRevealed == g.numRevealed && g'.markedTiles == g.markedTiles
    ensures Count(g'.board, Hidden) <= Count(g.board, Hidden)
  {
    Forfeit(g)
  }

  /** Showing the mines changes no count the invariant tracks, except that flags on mines go. */
  lemma {:induction false} RevealMinesFacts(b: Board)
    requires Square(b) && NoFlagOnOpen(b) && AdjacencyShown(b)
    ensures var b' := RevealMines(b);
      && SameLayout(b, b') && OpenSquaresKept(b, b')
      && NoFlagOnOpen(b') && AdjacencyShown(b')
      && Count(b', RevealedSafe) == Count(b, RevealedSafe)
      && Count(b', Flagged) <= Count(b, Flagged)
      && Count(b', Hidden) <= Count(b, Hidden)
  {
    var b' := RevealMines(b);
    assert SameLayout(b, b');
    AdjacencyOfSameLayout(b, b');
    CountMono(b', RevealedSafe, b, RevealedSafe);
    CountMono(b, RevealedSafe, b', RevealedSafe);
    CountMono(b', Flagged, b, Flagged);
    CountMono(b', Hidden, b, Hidden);
  }

  // ---------------------------------------------------------------------------
  // Opening squares

  /**
   * The non-mine part of `revealTile` for one square: a flag on it is returned to the
   * budget, its adjacency count is stored, it is opened, `numRevealed` grows by one and
   * the win equation is checked.
   */
  function OpenSafe(g: Game, r: int, c: int): (g': Game)
    requires Valid(g) && InBounds(g.board, r, c)
    requires !g.gameOver && !g.board[r][c].isRevealed && !IsMine(g.board[r][c])
    ensures Valid(g') && Kept(g, g')
    ensures g'.board[r][c].isRevealed && !g'.board[r][c].isFlagged
    ensures g'.board[r][c].adjacentMines == AdjacentMines(g.board, r, c)
    ensures forall i, j :: InBounds(g.board, i, j) && (i != r || j != c) ==> g'.board[i][j] == g.board[i][j]
    ensures g'.numRevealed == g.numRevealed + 1
    ensures g'.markedTiles == g.markedTiles - (if g.board[r][c].isFlagged then 1 else 0)
    ensures Count(g'.board, Flagged) == Count(g.board, Flagged) - (if g.board[r][c].isFlagged then 1 else 0)
    ensures g'.gameOver == g'.gameWon && !g'.gameLost
    ensures g'.gameWon <==> g'.numRevealed + g.numMines == |g.board| * |g.board| && g.timeLeft > 0
    ensures Count(g'.board, Hidden) == Count(g.board, Hidden) - 1
  {
    OpenSquareFacts(g.board, r, c);
    var marked := if g.board[r][c].isFlagged then g.markedTiles - 1 else g.markedTiles;
    CheckIfGameWon(g.(board := OpenSquare(g.board, r, c), markedTiles := marked, numRevealed := g.numRevealed + 1))
  }

  /** The board after one closed safe square is opened showing its adjacency count. */
  function OpenSquare(b: Board, r: int, c: int): Board
    requires Square(b) && InBounds(b, r, c)
  {
    Set(b, r, c, Reveal(WithAdjacentMines(b[r][c], AdjacentMines(b, r, c))))
  }

  /** Opening one closed safe square: one more open safe square, one hidden square and its flag fewer. */
  lemma {:induction false} OpenSquareFacts(b: Board, r: int, c: int)
    requires Square(b) && InBounds(b, r, c) && NoFlagOnOpen(b) && AdjacencyShown(b)
    requires !b[r][c].isRevealed && !IsMine(b[r][c])
    ensures var b' := OpenSquare(b, r, c);
      && SameLayout(b, b') && OpenSquaresKept(b, b')
      && NoFlagOnOpen(b') && AdjacencyShown(b')
      && Count(b', RevealedSafe) == Count(b, RevealedSafe) + 1
      && Count(b', Flagged) == Count(b, Flagged) - (if b[r][c].isFlagged then 1 else 0)
      && Count(b', Hidden) == Count(b, Hidden) - 1
  {
    var t' := Reveal(WithAdjacentMines(b[r][c], AdjacentMines(b, r, c)));
    var b' := Set(b, r, c, t');
    CountSet(b, r, c, t', RevealedSafe);
    CountSet(b, r, c, t', Flagged);
    CountSet(b, r, c, t', Hidden);
    assert SameLayout(b, b');
    AdjacencyOfSameLayout(b, b');
  }

  // ---------------------------------------------------------------------------
  // The region a flood fill opens

  /** A square the step opened: closed before it, open after it. */
  ghost predicate NewlyOpen(b: Board, b': Board, i: int, j: int)
    requires SameLayout(b, b')
  {
    InBounds(b, i, j) && !b[i][j].isRevealed && b'[i][j].isRevealed
  }

  /** Every square of the board-clipped 3×3 block around (i, j) is open. */
  ghost predicate BlockOpen(b: Board, i: int, j: int)
    requires Square(b)
  {
    forall i', j' :: InBounds(b, i', j') && Around(i, j, i', j') ==> b[i'][j'].isRevealed
  }

  /** The fill went as far as it should: every square the step opened with no mine around it has its block open. */
  ghost predicate FloodClosed(b: Board, b': Board)
    requires SameLayout(b, b')
  {
    forall i, j :: NewlyOpen(b, b', i, j) && AdjacentMines(b, i, j) == 0 ==> BlockOpen(b', i, j)
  }

  /** Every square still closed after the step is exactly as it was, flag included: the step only opens squares. */
  ghost predicate ClosedKept(b: Board, b': Board)
    requires SameLayout(b, b')
  {
    forall i, j :: InBounds(b, i, j) && !b'[i][j].isRevealed ==> b'[i][j] == b[i][j]
  }

  lemma ClosedKeptCompose(b0: Board, b1: Board, b2: Board)
    requires SameLayout(b0, b1) && SameLayout(b1, b2) && OpenSquaresKept(b1, b2)
    requires ClosedKept(b0, b1) && ClosedKept(b1, b2)
    ensures SameLayout(b0, b2) && ClosedKept(b0, b2)
  {
    forall i, j | InBounds(b0, i, j) && !b2[i][j].isRevealed
      ensures b2[i][j] == b0[i][j]
    {
      assert !b1[i][j].isRevealed;
    }
  }

  /**
   * A route the fill can take: consecutive squares touch, the step opened every square on
   * it, and every square but the last has no mine around it.
   */
  ghost predicate FillPath(b: Board, b': Board, p: seq<(int, int)>)
    requires SameLayout(b, b')
  {
    && (forall k :: 0 <= k < |p| ==> NewlyOpen(b, b', p[k].0, p[k].1))
    && (forall k :: 0 <= k < |p| - 1 ==>
          AdjacentMines(b, p[k].0, p[k].1) == 0 && Around(p[k].0, p[k].1, p[k + 1].0, p[k + 1].1))
  }

  /** The fill reaches (i, j) from (r, c). */
  ghost predicate Reaches(b: Board, b': Board, r: int, c: int, i: int, j: int)
    requires SameLayout(b, b')
  {
    exists p :: FillPath(b, b', p) && |p| > 0 && p[0] == (r, c) && p[|p| - 1] == (i, j)
  }

  /** The fill went no further than it should: it reaches every safe square the step opened from the target (r, c). */
  ghost predicate FloodFrom(b: Board, b': Board, r: int, c: int)
    requires SameLayout(b, b')
  {
    forall i, j :: NewlyOpen(b, b', i, j) && !IsMine(b[i][j]) ==> Reaches(b, b', r, c, i, j)
  }

  /** As `FloodFrom`, for the neighbours loop: the fill starts from the squares around (r, c). */
  ghost predicate FloodAround(b: Board, b': Board, r: int, c: int)
    requires SameLayout(b, b')
  {
    forall i, j :: NewlyOpen(b, b', i, j) && !IsMine(b[i][j]) ==>
      exists r', c' :: Around(r, c, r', c') && Reaches(b, b', r', c', i, j)
  }

  /** A route of either of two consecutive steps is a route of both together. */
  lemma PathsCompose(b0: Board, b1: Board, b2: Board, p: seq<(int, int)>)
    requires SameLayout(b0, b1) && SameLayout(b1, b2)
    requires OpenSquaresKept(b0, b1) && OpenSquaresKept(b1, b2)
    requires FillPath(b0, b1, p) || FillPath(b1, b2, p)
    ensures SameLayout(b0, b2) && FillPath(b0, b2, p)
  {
    AdjacencyOfSameLayout(b0, b1);
    if FillPath(b0, b1, p) {
      forall k | 0 <= k < |p|
        ensures NewlyOpen(b0, b2, p[k].0, p[k].1)
      {
        assert NewlyOpen(b0, b1, p[k].0, p[k].1);
      }
    } else {
      forall k | 0 <= k < |p|
        ensures NewlyOpen(b0, b2, p[k].0, p[k].1)
      {
        assert NewlyOpen(b1, b2, p[k].0, p[k].1);
      }
    }
  }

  /** Squares opened in either of two consecutive steps have their blocks open after both. */
  lemma FloodClosedCompose(b0: Board, b1: Board, b2: Board)
    requires SameLayout(b0, b1) && SameLayout(b1, b2)
    requires OpenSquaresKept(b0, b1) && OpenSquaresKept(b1, b2)
    requires FloodClosed(b0, b1) && FloodClosed(b1, b2)
    ensures SameLayout(b0, b2) && FloodClosed(b0, b2)
  {
    AdjacencyOfSameLayout(b0, b1);
    forall i, j | NewlyOpen(b0, b2, i, j) && AdjacentMines(b0, i, j) == 0
      ensures BlockOpen(b2, i, j)
    {
      if b1[i][j].isRevealed {
        assert NewlyOpen(b0, b1, i, j) && BlockOpen(b1, i, j);
      } else {
        assert NewlyOpen(b1, b2, i, j);
      }
    }
  }

  /** A step that opens the target alone: the target is its whole fill. */
  lemma OnlyTargetOpened(b: Board, b': Board, r: int, c: int)
    requires SameLayout(b, b') && InBounds(b, r, c) && b'[r][c].isRevealed
    requires forall i, j :: InBounds(b, i, j) && (i != r || j != c) ==> b'[i][j] == b[i][j]
    ensures FloodFrom(b, b', r, c)
    ensures AdjacentMines(b, r, c) != 0 ==> FloodClosed(b, b')
  {
    forall i, j | NewlyOpen(b, b', i, j) && !IsMine(b[i][j])
      ensures Reaches(b, b', r, c, i, j)
    {
      var p := [(r, c)];
      assert FillPath(b, b', p);
    }
  }

  /**
   * `revealTile(row, col, recursion)`: nothing happens on an open square or after the
   * round is over; a mine loses the round; otherwise the square is opened and, when it has
   * no mine around it and `recursion` is set, its eight neighbours are opened the same
   * way. The flood fill never opens a mine and ends because every call that does anything
   * opens a closed square. With `recursion` it opens exactly the connected mine-free region
   * around the target and its border: `FloodClosed` and `FloodFrom`.
   */
  function RevealTile(g: Game, r: int, c: int, recursion: bool): (g': Game)
    requires Valid(g) && InBounds(g.board, r, c)
    ensures Valid(g') && Kept(g, g')
    ensures Count(g'.board, Hidden) <= Count(g.board, Hidden)
    ensures g.gameOver || g.board[r][c].isRevealed ==> g' == g
    ensures !g.gameOver && !g.board[r][c].isRevealed && IsMine(g.board[r][c]) ==>
              g'.gameLost && !g'.gameWon && AllMinesOpen(g'.board) && SafeSquaresKept(g.board, g'.board)
              && g'.numRevealed == g.numRevealed && g'.markedTiles == g.markedTiles
    ensures !IsMine(g.board[r][c]) ==> MinesKept(g.board, g'.board) && g'.gameLost == g.gameLost
    ensures !IsMine(g.board[r][c]) && !g.gameOver ==> g'.board[r][c].isRevealed
    ensures !recursion && !IsMine(g.board[r][c]) ==> forall i, j :: InBounds(g.board, i, j) && (i != r || j != c) ==>
              g'.board[i][j] == g.board[i][j]
    ensures recursion && !g.gameOver && !g.board[r][c].isRevealed && !IsMine(g.board[r][c])
            && AdjacentMines(g.board, r, c) == 0 && !g'.gameOver ==>
              forall i, j :: InBounds(g.board, i, j) && Around(r, c, i, j) ==> g'.board[i][j].isRevealed
    ensures FloodFrom(g.board, g'.board, r, c)
    ensures recursion && !g'.gameOver ==> FloodClosed(g.board, g'.board)
    ensures ClosedKept(g.board, g'.board)
    ensures !IsMine(g.board[r][c]) ==> g'.markedTiles + Count(g.board, Flagged) == g.markedTiles + Count(g'.board, Flagged)
    ensures !IsMine(g.board[r][c]) && !g.gameOver ==> (g'.gameWon <==> WinEquation(g'))
    decreases Count(g.board, Hidden), 1, 0
  {
    var t := g.board[r][c];
    var g' := if t.isRevealed || g.gameOver then g
              else if IsMine(t) then HitMine(g)
              else OpenAndSpread(g, r, c, recursion);
    SafeOpenDecidesWin(g', r, c);
    g'
  }

  /** A closed safe square is opened; with `recursion` and no mine around, so are its neighbours. */
  function OpenAndSpread(g: Game, r: int, c: int, recursion: bool): (g': Game)
    requires Valid(g) && InBounds(g.board, r, c)
    requires !g.gameOver && !g.board[r][c].isRevealed && !IsMine(g.board[r][c])
    ensures Valid(g') && Kept(g, g')
    ensures Count(g'.board, Hidden) < Count(g.board, Hidden)
    ensures MinesKept(g.board, g'.board) && g'.gameLost == g.gameLost
    ensures g'.board[r][c].isRevealed
    ensures !recursion ==> forall i, j :: InBounds(g.board, i, j) && (i != r || j != c) ==>
              g'.board[i][j] == g.board[i][j]
    ensures recursion && AdjacentMines(g.board, r, c) == 0 && !g'.gameOver ==>
              forall i, j :: InBounds(g.board, i, j) && Around(r, c, i, j) ==> g'.board[i][j].isRevealed
    ensures FloodFrom(g.board, g'.board, r, c)
    ensures recursion && !g'.gameOver ==> FloodClosed(g.board, g'.board)
    ensures ClosedKept(g.board, g'.board)
    ensures g'.markedTiles + Count(g.board, Flagged) == g.markedTiles + Count(g'.board, Flagged)
    decreases Count(g.board, Hidden), 0, 1
  {
    if AdjacentMines(g.board, r, c) == 0 && recursion then Spread(g, r, c)
    else
      var g1 := OpenSafe(g, r, c);
      OnlyTargetOpened(g.board, g1.board, r, c);
      g1
  }

  /** A closed safe square with no mine around it is opened, and then its neighbours. */
  function Spread(g: Game, r: int, c: int): (g': Game)
    requires Valid(g) && InBounds(g.board, r, c)
    requires !g.gameOver && !g.board[r][c].isRevealed && !IsMine(g.board[r][c]) && AdjacentMines(g.board, r, c) == 0
    ensures Valid(g') && Kept(g, g')
    ensures Count(g'.board, Hidden) < Count(g.board, Hidden)
    ensures MinesKept(g.board, g'.board) && g'.gameLost == g.gameLost
    ensures g'.board[r][c].isRevealed
    ensures !g'.gameOver ==> forall i, j :: InBounds(g.board, i, j) && Around(r, c, i, j) ==> g'.board[i][j].isRevealed
    ensures FloodFrom(g.board, g'.board, r, c)
    ensures !g'.gameOver ==> FloodClosed(g.board, g'.board)
    ensures ClosedKept(g.board, g'.board)
    ensures g'.markedTiles + Count(g.board, Flagged) == g.markedTiles + Count(g'.board, Flagged)
    decreases Count(g.board, Hidden), 0, 0
  {
    var g1 := OpenSafe(g, r, c);
    AdjacencyOfSameLayout(g.board, g1.board);
    var g2 := RevealNeighbours(g1, r, c, 0);
    SpreadFacts(g, g1, g2, r, c);
    g2
  }

  /** Putting the opened square and the neighbours loop together. */
  lemma SpreadFacts(g: Game, g1: Game, g2: Game, r: int, c: int)
    requires Valid(g) && InBounds(g.board, r, c)
    requires Kept(g, g1) && Kept(g1, g2)
    requires MinesKept(g.board, g1.board) && MinesKept(g1.board, g2.board)
    requires !g.board[r][c].isRevealed && g1.board[r][c].isRevealed && AdjacentMines(g.board, r, c) == 0
    requires forall i, j :: InBounds(g.board, i, j) && (i != r || j != c) ==> g1.board[i][j] == g.board[i][j]
    requires !g2.gameOver ==> forall k :: 0 <= k < 9 && InBounds(g1.board, Neighbour(r, c, k).0, Neighbour(r, c, k).1) ==>
               g2.board[Neighbour(r, c, k).0][Neighbour(r, c, k).1].isRevealed
    requires FloodAround(g1.board, g2.board, r, c)
    requires !g2.gameOver ==> FloodClosed(g1.board, g2.board)
    requires ClosedKept(g1.board, g2.board)
    ensures Kept(g, g2) && MinesKept(g.board, g2.board) && g2.board[r][c].isRevealed
    ensures ClosedKept(g.board, g2.board)
    ensures !g2.gameOver ==> forall i, j :: InBounds(g.board, i, j) && Around(r, c, i, j) ==> g2.board[i][j].isRevealed
    ensures FloodFrom(g.board, g2.board, r, c)
    ensures !g2.gameOver ==> FloodClosed(g.board, g2.board)
  {
    KeptTransitive(g, g1, g2);
    AdjacencyOfSameLayout(g.board, g1.board);
    if !g2.gameOver {
      forall i, j | InBounds(g.board, i, j) && Around(r, c, i, j)
        ensures g2.board[i][j].isRevealed
      {
        var k := NeighbourIndex(r, c, i, j);
      }
    }
    SpreadReaches(g.board, g1.board, g2.board, r, c);
    ClosedKeptCompose(g.board, g1.board, g2.board);
    if !g2.gameOver {
      SpreadClosed(g.board, g1.board, g2.board, r, c);
    }
  }

  /** The fill reaches the target itself and, through it, everything the neighbours loop reached. */
  lemma SpreadReaches(b: Board, b1: Board, b2: Board, r: int, c: int)
    requires SameLayout(b, b1) && SameLayout(b1, b2) && OpenSquaresKept(b, b1) && OpenSquaresKept(b1, b2)
    requires InBounds(b, r, c) && !b[r][c].isRevealed && b1[r][c].isRevealed && AdjacentMines(b, r, c) == 0
    requires forall i, j :: InBounds(b, i, j) && (i != r || j != c) ==> b1[i][j] == b[i][j]
    requires FloodAround(b1, b2, r, c)
    ensures SameLayout(b, b2) && FloodFrom(b, b2, r, c)
  {
    SameLayoutTransitive(b, b1, b2);
    assert NewlyOpen(b, b2, r, c);
    forall i, j | NewlyOpen(b, b2, i, j) && !IsMine(b[i][j])
      ensures Reaches(b, b2, r, c, i, j)
    {
      if i == r && j == c {
        assert FillPath(b, b2, [(r, c)]);
      } else {
        assert NewlyOpen(b1, b2, i, j);
        var r', c' :| Around(r, c, r', c') && Reaches(b1, b2, r', c', i, j);
        var p :| FillPath(b1, b2, p) && |p| > 0 && p[0] == (r', c') && p[|p| - 1] == (i, j);
        ReachedThroughNeighbour(b, b1, b2, r, c, p);
      }
    }
  }

  /** A square the neighbours loop opened is reached from the target through the neighbour it came from. */
  lemma ReachedThroughNeighbour(b: Board, b1: Board, b2: Board, r: int, c: int, p: seq<(int, int)>)
    requires SameLayout(b, b1) && SameLayout(b1, b2) && OpenSquaresKept(b, b1) && OpenSquaresKept(b1, b2)
    requires InBounds(b, r, c) && !b[r][c].isRevealed && b1[r][c].isRevealed && AdjacentMines(b, r, c) == 0
    requires FillPath(b1, b2, p) && |p| > 0 && Around(r, c, p[0].0, p[0].1)
    ensures Reaches(b, b2, r, c, p[|p| - 1].0, p[|p| - 1].1)
  {
    var (i, j) := p[|p| - 1];
    PathsCompose(b, b1, b2, p);
    assert NewlyOpen(b, b2, r, c);
    PathCons(b, b2, r, c, p);
    var q := [(r, c)] + p;
    assert q[0] == (r, c) && q[|q| - 1] == (i, j);
  }

  /** The target's block is open and the neighbours loop closed what it opened, so the whole fill is closed. */
  lemma SpreadClosed(b: Board, b1: Board, b2: Board, r: int, c: int)
    requires SameLayout(b, b1) && SameLayout(b1, b2) && OpenSquaresKept(b, b1) && OpenSquaresKept(b1, b2)
    requires InBounds(b, r, c)
    requires forall i, j :: InBounds(b, i, j) && (i != r || j != c) ==> b1[i][j] == b[i][j]
    requires BlockOpen(b2, r, c) && FloodClosed(b1, b2)
    ensures SameLayout(b, b2) && FloodClosed(b, b2)
  {
    SameLayoutTransitive(b, b1, b2);
    AdjacencyOfSameLayout(b, b1);
    forall i, j | NewlyOpen(b, b2, i, j) && AdjacentMines(b, i, j) == 0
      ensures BlockOpen(b2, i, j)
    {
      if i != r || j != c {
        assert NewlyOpen(b1, b2, i, j);
      }
    }
  }

  /** A route that starts next to an opened square with no mine around it extends back to that square. */
  lemma PathCons(b: Board, b': Board, r: int, c: int, p: seq<(int, int)>)
    requires SameLayout(b, b') && FillPath(b, b', p) && |p| > 0
    requires NewlyOpen(b, b', r, c) && AdjacentMines(b, r, c) == 0 && Around(r, c, p[0].0, p[0].1)
    ensures FillPath(b, b', [(r, c)] + p)
  {
    var q := [(r, c)] + p;
    forall k | 0 <= k < |q|
      ensures NewlyOpen(b, b', q[k].0, q[k].1)
    {
      if k > 0 {
        assert q[k] == p[k - 1];
      }
    }
    forall k | 0 <= k < |q| - 1
      ensures AdjacentMines(b, q[k].0, q[k].1) == 0 && Around(q[k].0, q[k].1, q[k + 1].0, q[k + 1].1)
    {
      if k > 0 {
        assert q[k] == p[k - 1] && q[k + 1] == p[k];
      }
    }
  }

  /** The recursive part of `revealTile`: neighbours k .. 8 of a square with no mine around it. */
  function RevealNeighbours(g: Game, r: int, c: int, k: int): (g': Game)
    requires Valid(g) && InBounds(g.board, r, c) && 0 <= k <= 9
    requires AdjacentMines(g.board, r, c) == 0
    ensures Valid(g') && Kept(g, g')
    ensures Count(g'.board, Hidden) <= Count(g.board, Hidden)
    ensures MinesKept(g.board, g'.board) && g'.gameLost == g.gameLost
    ensures !g'.gameOver ==> forall k' :: k <= k' < 9 && InBounds(g.board, Neighbour(r, c, k').0, Neighbour(r, c, k').1) ==>
              g'.board[Neighbour(r, c, k').0][Neighbour(r, c, k').1].isRevealed
    ensures FloodAround(g.board, g'.board, r, c)
    ensures !g'.gameOver ==> FloodClosed(g.board, g'.board)
    ensures ClosedKept(g.board, g'.board)
    ensures g'.markedTiles + Count(g.board, Flagged) == g.markedTiles + Count(g'.board, Flagged)
    ensures g.board[r][c].isRevealed && !g.gameLost ==> (g'.gameWon <==> WinEquation(g'))
    decreases Count(g.board, Hidden), 2, 9 - k
  {
    var g' := if k == 9 then g
      else (
        var g1 := RevealNeighbour(g, r, c, k);
        AdjacencyOfSameLayout(g.board, g1.board);
        var g2 := RevealNeighbours(g1, r, c, k + 1);
        NeighboursStep(g, g1, g2, r, c, k);
        g2);
    assert Around(r, c, r, c);
    SafeOpenDecidesWin(g', r, c);
    g'
  }

  /** One turn of the neighbours loop: the k-th neighbour, when on the board, goes through `revealTile` with recursion. */
  function RevealNeighbour(g: Game, r: int, c: int, k: int): (g': Game)
    requires Valid(g) && InBounds(g.board, r, c) && 0 <= k < 9
    requires AdjacentMines(g.board, r, c) == 0
    ensures Valid(g') && Kept(g, g')
    ensures Count(g'.board, Hidden) <= Count(g.board, Hidden)
    ensures MinesKept(g.board, g'.board) && g'.gameLost == g.gameLost
    ensures InBounds(g.board, Neighbour(r, c, k).0, Neighbour(r, c, k).1) && !g'.gameOver ==>
              g'.board[Neighbour(r, c, k).0][Neighbour(r, c, k).1].isRevealed
    ensures FloodFrom(g.board, g'.board, Neighbour(r, c, k).0, Neighbour(r, c, k).1)
    ensures !g'.gameOver ==> FloodClosed(g.board, g'.board)
    ensures ClosedKept(g.board, g'.board)
    ensures g'.markedTiles + Count(g.board, Flagged) == g.markedTiles + Count(g'.board, Flagged)
    decreases Count(g.board, Hidden), 1, 1
  {
    var (i, j) := Neighbour(r, c, k);
    if InBounds(g.board, i, j) then
      assert !IsMine(g.board[i][j]);
      RevealTile(g, i, j, true)
    else g
  }

  /** One turn of the neighbours loop followed by the rest of it. */
  lemma NeighboursStep(g: Game, g1: Game, g2: Game, r: int, c: int, k: int)
    requires Square(g.board) && 0 <= k < 9
    requires Kept(g, g1) && Kept(g1, g2)
    requires MinesKept(g.board, g1.board) && MinesKept(g1.board, g2.board)
    requires InBounds(g.board, Neighbour(r, c, k).0, Neighbour(r, c, k).1) && !g1.gameOver ==>
               g1.board[Neighbour(r, c, k).0][Neighbour(r, c, k).1].isRevealed
    requires !g2.gameOver ==> forall k' :: k + 1 <= k' < 9 && InBounds(g1.board, Neighbour(r, c, k').0, Neighbour(r, c, k').1) ==>
               g2.board[Neighbour(r, c, k').0][Neighbour(r, c, k').1].isRevealed
    requires FloodFrom(g.board, g1.board, Neighbour(r, c, k).0, Neighbour(r, c, k).1)
    requires FloodAround(g1.board, g2.board, r, c)
    requires !g1.gameOver ==> FloodClosed(g.board, g1.board)
    requires !g2.gameOver ==> FloodClosed(g1.board, g2.board)
    requires ClosedKept(g.board, g1.board) && ClosedKept(g1.board, g2.board)
    requires g1.markedTiles + Count(g.board, Flagged) == g.markedTiles + Count(g1.board, Flagged)
    requires g2.markedTiles + Count(g1.board, Flagged) == g1.markedTiles + Count(g2.board, Flagged)
    ensures Kept(g, g2) && MinesKept(g.board, g2.board)
    ensures ClosedKept(g.board, g2.board)
    ensures g2.markedTiles + Count(g.board, Flagged) == g.markedTiles + Count(g2.board, Flagged)
    ensures !g2.gameOver ==> forall k' :: k <= k' < 9 && InBounds(g.board, Neighbour(r, c, k').0, Neighbour(r, c, k').1) ==>
              g2.board[Neighbour(r, c, k').0][Neighbour(r, c, k').1].isRevealed
    ensures FloodAround(g.board, g2.board, r, c)
    ensures !g2.gameOver ==> FloodClosed(g.board, g2.board)
  {
    KeptTransitive(g, g1, g2);
    FloodAroundStep(g.board, g1.board, g2.board, r, c, k);
    ClosedKeptCompose(g.board, g1.board, g2.board);
    if !g2.gameOver {
      FloodClosedCompose(g.board, g1.board, g2.board);
    }
  }

  /** What the k-th neighbour's fill opened and what the rest of the loop opened are both reached from the block. */
  lemma FloodAroundStep(b: Board, b1: Board, b2: Board, r: int, c: int, k: int)
    requires 0 <= k < 9
    requires SameLayout(b, b1) && SameLayout(b1, b2) && OpenSquaresKept(b, b1) && OpenSquaresKept(b1, b2)
    requires FloodFrom(b, b1, Neighbour(r, c, k).0, Neighbour(r, c, k).1)
    requires FloodAround(b1, b2, r, c)
    ensures SameLayout(b, b2) && FloodAround(b, b2, r, c)
  {
    SameLayoutTransitive(b, b1, b2);
    var (ni, nj) := Neighbour(r, c, k);
    forall i, j | NewlyOpen(b, b2, i, j) && !IsMine(b[i][j])
      ensures exists r', c' :: Around(r, c, r', c') && Reaches(b, b2, r', c', i, j)
    {
      if b1[i][j].isRevealed {
        assert NewlyOpen(b, b1, i, j);
        var p :| FillPath(b, b1, p) && |p| > 0 && p[0] == (ni, nj) && p[|p| - 1] == (i, j);
        PathsCompose(b, b1, b2, p);
        assert Reaches(b, b2, ni, nj, i, j);
      } else {
        assert NewlyOpen(b1, b2, i, j);
        var r', c' :| Around(r, c, r', c') && Reaches(b1, b2, r', c', i, j);
        var p :| FillPath(b1, b2, p) && |p| > 0 && p[0] == (r', c') && p[|p| - 1] == (i, j);
        PathsCompose(b, b1, b2, p);
        assert Reaches(b, b2, r', c', i, j);
      }
    }
  }

  // ---------------------------------------------------------------------------
  // Player actions

  /** The bookkeeping of a left click: the clock is started and one more attempt is counted. */
  function Clicked(g: Game): (g': Game)
    ensures g'.attempts == g.attempts + 1 && g'.startedTimer
    ensures g' == g.(startedTimer := true, attempts := g'.attempts)
  {
    g.(startedTimer := true, attempts := g.attempts + 1)
  }

  /**
   * `AddRevealClick`: a left click starts the clock, counts one attempt and opens with flood
   * fill. On an open square or a finished round only the bookkeeping happens.
   */
  function AddRevealClick(g: Game, r: int, c: int): (g': Game)
    requires Valid(g) && InBounds(g.board, r, c)
    ensures Valid(g')
    ensures g'.attempts == g.attempts + 1 && g'.startedTimer
    ensures g'.flagSuperMine == g.flagSuperMine && g'.timeLeft == g.timeLeft
    ensures Kept(Clicked(g), g')
    ensures g.gameOver || g.board[r][c].isRevealed ==> g' == Clicked(g)
    ensures SameLayout(g.board, g'.board) && OpenSquaresKept(g.board, g'.board)
    ensures ClosedKept(g.board, g'.board)
    ensures !IsMine(g.board[r][c]) ==> MinesKept(g.board, g'.board) && g'.gameLost == g.gameLost
    ensures !IsMine(g.board[r][c]) ==>
              g'.markedTiles + Count(g.board, Flagged) == g.markedTiles + Count(g'.board, Flagged)
    ensures !IsMine(g.board[r][c]) && !g.gameOver ==> g'.board[r][c].isRevealed
    ensures IsMine(g.board[r][c]) && !g.gameOver && !g.board[r][c].isRevealed ==>
              && g'.gameLost && !g'.gameWon && AllMinesOpen(g'.board) && SafeSquaresKept(g.board, g'.board)
              && g'.numRevealed == g.numRevealed && g'.markedTiles == g.markedTiles
    ensures FloodFrom(g.board, g'.board, r, c)
    ensures !g'.gameOver ==> FloodClosed(g.board, g'.board)
    ensures !IsMine(g.board[r][c]) && !g.gameOver ==> (g'.gameWon <==> WinEquation(g'))
  {
    RevealTile(Clicked(g), r, c, true)
  }

  /**
   * `flagTile` on a square that carries a flag, which is all the nested calls inside the
   * supermine rule ever meet: the flag is removed and returned to the budget unless the
   * round is over.
   */
  function ClearFlag(g: Game, r: int, c: int): (g': Game)
    requires Valid(g) && InBounds(g.board, r, c) && g.board[r][c].isFlagged
    ensures Valid(g') && Kept(g, g') && g'.numRevealed == g.numRevealed
    ensures g.gameOver ==> g' == g
    ensures !g.gameOver ==> !g'.board[r][c].isFlagged && g'.markedTiles == g.markedTiles - 1
    ensures forall i, j :: InBounds(g.board, i, j) && (i != r || j != c) ==> g'.board[i][j] == g.board[i][j]
    ensures Count(g'.board, Hidden) == Count(g.board, Hidden)
    ensures g'.board[r][c] == (if g.gameOver then g.board[r][c] else ToggleFlag(g.board[r][c]))
  {
    if g.gameOver then g
    else
      var t' := ToggleFlag(g.board[r][c]);
      CountSet(g.board, r, c, t', RevealedSafe);
      CountSet(g.board, r, c, t', Flagged);
      CountSet(g.board, r, c, t', Hidden);
      var b' := Set(g.board, r, c, t');
      AdjacencyOfSameLayout(g.board, b');
      g.(board := b', markedTiles := g.markedTiles - 1)
  }

  /** Opening a mine without `revealTile`, as the supermine rule does: the game goes on. */
  function ShowMine(g: Game, i: int, j: int): (g': Game)
    requires Valid(g) && InBounds(g.board, i, j) && IsMine(g.board[i][j])
    requires !g.gameOver ==> !g.board[i][j].isFlagged
    ensures Valid(g') && Kept(g, g')
    ensures g'.board[i][j] == Reveal(g.board[i][j])
    ensures forall i', j' :: InBounds(g.board, i', j') && (i' != i || j' != j) ==> g'.board[i'][j'] == g.board[i'][j']
    ensures g'.numRevealed == g.numRevealed && g'.markedTiles == g.markedTiles && g'.gameOver == g.gameOver
    ensures Count(g'.board, Hidden) <= Count(g.board, Hidden)
  {
    var g' := g.(board := Set(g.board, i, j, Reveal(g.board[i][j])));
    ShowMineFacts(g, i, j, g');
    g'
  }

  lemma ShowMineFacts(g: Game, i: int, j: int, g': Game)
    requires Valid(g) && InBounds(g.board, i, j) && IsMine(g.board[i][j])
    requires !g.gameOver ==> !g.board[i][j].isFlagged
    requires g' == g.(board := Set(g.board, i, j, Reveal(g.board[i][j])))
    ensures Valid(g') && Kept(g, g')
    ensures Count(g'.board, Hidden) <= Count(g.board, Hidden)
  {
    var t' := Reveal(g.board[i][j]);
    var b' := g'.board;
    CountSet(g.board, i, j, t', RevealedSafe);
    CountSet(g.board, i, j, t', Flagged);
    CountSet(g.board, i, j, t', Hidden);
    assert SameLayout(g.board, b');
    AdjacencyOfSameLayout(g.board, b');
  }

  /** The first-four-attempts condition under which flagging the supermine fires its rule. */
  predicate RuleFires(g: Game, r: int, c: int)
    requires Square(g.board) && InBounds(g.board, r, c)
  {
    var t := g.board[r][c];
    && !g.gameOver && !t.isRevealed && !t.isFlagged && g.markedTiles != g.numMines
    && IsSuperMine(t) && g.attempts < 4 && !g.flagSuperMine
  }

  /** Every square of row `r` and of column `c` is open. */
  ghost predicate CrossOpen(b: Board, r: int, c: int)
    requires Square(b)
  {
    forall i, j :: InBounds(b, i, j) && (i == r || j == c) ==> b[i][j].isRevealed
  }

  /** Squares outside row `r` and column `c` are as they were. */
  ghost predicate OutsideCrossKept(b: Board, b': Board, r: int, c: int)
    requires Square(b) && Square(b') && |b| == |b'|
  {
    forall i, j :: InBounds(b, i, j) && i != r && j != c ==> b'[i][j] == b[i][j]
  }

  /**
   * `flagTile`: the clock starts when the supermine is right-clicked first; nothing happens
   * after the round or on an open square, nor when every flag is in use and the square has
   * none; a flag is removed (returning it to the budget) or placed (taking one); placing
   * it on the supermine within the first four attempts, once per round, fires the rule.
   */
  function Flag(g: Game, r: int, c: int): (g': Game)
    requires Valid(g) && InBounds(g.board, r, c)
    ensures Valid(g')
    ensures SameLayout(g.board, g'.board) && OpenSquaresKept(g.board, g'.board)
    ensures g'.numMines == g.numMines && g'.maxTime == g.maxTime && g'.timeLeft == g.timeLeft
    ensures g'.attempts == g.attempts
    ensures g'.startedTimer == (g.startedTimer || IsSuperMine(g.board[r][c]))
    ensures g'.flagSuperMine == (g.flagSuperMine || RuleFires(g, r, c))
    ensures !RuleFires(g, r, c) ==> g'.gameOver == g.gameOver && g'.records == g.records
    ensures (g.gameOver ==> g'.gameOver) && g'.records == g.records + (if !g.gameOver && g'.gameOver then [Summary(g')] else [])
    ensures (|| g.gameOver || g.board[r][c].isRevealed
             || (g.markedTiles == g.numMines && !g.board[r][c].isFlagged)) ==> g'.board == g.board
    ensures !g.gameOver && g.board[r][c].isFlagged ==>
              g'.board == Set(g.board, r, c, ToggleFlag(g.board[r][c])) && g'.markedTiles == g.markedTiles - 1
    ensures !g.gameOver && !g.board[r][c].isRevealed && !g.board[r][c].isFlagged
            && g.markedTiles != g.numMines && !RuleFires(g, r, c) ==>
              g'.board == Set(g.board, r, c, ToggleFlag(g.board[r][c])) && g'.markedTiles == g.markedTiles + 1
    ensures RuleFires(g, r, c) ==> g'.board[r][c] == Reveal(g.board[r][c])
    ensures RuleFires(g, r, c) && UniqueSuper(g.board) ==> !g'.gameLost && OutsideCrossKept(g.board, g'.board, r, c)
    ensures RuleFires(g, r, c) && Layout(g) ==> CrossOpen(g'.board, r, c)
    ensures RuleFires(g, r, c) && UniqueSuper(g.board) && g'.numRevealed > 0 ==> (g'.gameWon <==> WinEquation(g'))
  {
    var t := g.board[r][c];
    var g0 := if !g.startedTimer && IsSuperMine(t) then g.(startedTimer := true) else g;
    assert Valid(g0);
    FlagSquare(g0, r, c)
  }

  /** `flagTile` after its clock check. */
  function FlagSquare(g: Game, r: int, c: int): (g': Game)
    requires Valid(g) && InBounds(g.board, r, c)
    ensures Valid(g')
    ensures SameLayout(g.board, g'.board) && OpenSquaresKept(g.board, g'.board)
    ensures g'.numMines == g.numMines && g'.maxTime == g.maxTime && g'.timeLeft == g.timeLeft
    ensures g'.attempts == g.attempts && g'.startedTimer == g.startedTimer
    ensures g'.flagSuperMine == (g.flagSuperMine || RuleFires(g, r, c))
    ensures !RuleFires(g, r, c) ==> g'.gameOver == g.gameOver && g'.records == g.records
    ensures (g.gameOver ==> g'.gameOver) && g'.records == g.records + (if !g.gameOver && g'.gameOver then [Summary(g')] else [])
    ensures (|| g.gameOver || g.board[r][c].isRevealed
             || (g.markedTiles == g.numMines && !g.board[r][c].isFlagged)) ==> g'.board == g.board
    ensures !g.gameOver && g.board[r][c].isFlagged ==>
              g'.board == Set(g.board, r, c, ToggleFlag(g.board[r][c])) && g'.markedTiles == g.markedTiles - 1
    ensures !g.gameOver && !g.board[r][c].isRevealed && !g.board[r][c].isFlagged
            && g.markedTiles != g.numMines && !RuleFires(g, r, c) ==>
              g'.board == Set(g.board, r, c, ToggleFlag(g.board[r][c])) && g'.markedTiles == g.markedTiles + 1
    ensures RuleFires(g, r, c) ==> g'.board[r][c] == Reveal(g.board[r][c])
    ensures RuleFires(g, r, c) && UniqueSuper(g.board) ==> !g'.gameLost && OutsideCrossKept(g.board, g'.board, r, c)
    ensures RuleFires(g, r, c) && Layout(g) ==> CrossOpen(g'.board, r, c)
    ensures RuleFires(g, r, c) && UniqueSuper(g.board) && g'.numRevealed > 0 ==> (g'.gameWon <==> WinEquation(g'))
  {
    var t := g.board[r][c];
    if g.gameOver || t.isRevealed then g
    else if g.markedTiles == g.numMines && !t.isFlagged then g
    else if t.isFlagged then ClearFlag(g, r, c)
    else if IsSuperMine(t) && g.attempts < 4 && !g.flagSuperMine then SupermineRule(g, r, c)
    else PlaceFlag(g, r, c)
  }

  /** Placing a flag on a closed square while flags remain. */
  function PlaceFlag(g: Game, r: int, c: int): (g': Game)
    requires Valid(g) && InBounds(g.board, r, c) && !g.gameOver
    requires !g.board[r][c].isRevealed && !g.board[r][c].isFlagged && g.markedTiles != g.numMines
    ensures Valid(g') && Kept(g, g')
    ensures g'.board == Set(g.board, r, c, ToggleFlag(g.board[r][c])) && g'.board[r][c].isFlagged
    ensures g'.markedTiles == g.markedTiles + 1 && g'.numRevealed == g.numRevealed
    ensures g' == g.(board := g'.board, markedTiles := g'.markedTiles)
  {
    var t' := ToggleFlag(g.board[r][c]);
    var b' := Set(g.board, r, c, t');
    CountSet(g.board, r, c, t', RevealedSafe);
    CountSet(g.board, r, c, t', Flagged);
    assert SameLayout(g.board, b');
    AdjacencyOfSameLayout(g.board, b');
    g.(board := b', markedTiles := g.markedTiles + 1)
  }

  /** Removing the flag just placed restores the round exactly. */
  lemma PlaceThenClear(g: Game, r: int, c: int)
    requires Valid(g) && InBounds(g.board, r, c) && !g.gameOver
    requires !g.board[r][c].isRevealed && !g.board[r][c].isFlagged && g.markedTiles != g.numMines
    ensures ClearFlag(PlaceFlag(g, r, c), r, c) == g
  {
    ToggleFlagInvolution(g.board[r][c]);
    SetBack(g.board, r, c, ToggleFlag(g.board[r][c]));
  }

  /**
   * The supermine rule, from the unflagged supermine: the flag is placed, the latch is set,
   * the flag is removed again, the supermine is shown, and every other square of its row
   * and column is opened, mines directly and the rest without flood fill.
   */
  function SupermineRule(g: Game, r: int, c: int): (g': Game)
    requires Valid(g) && InBounds(g.board, r, c) && RuleFires(g, r, c)
    ensures Valid(g') && g'.flagSuperMine
    ensures SameLayout(g.board, g'.board) && OpenSquaresKept(g.board, g'.board)
    ensures g'.numMines == g.numMines && g'.maxTime == g.maxTime && g'.timeLeft == g.timeLeft
    ensures g'.attempts == g.attempts && g'.startedTimer == g.startedTimer
    ensures g'.records == g.records + (if g'.gameOver then [Summary(g')] else [])
    ensures g'.board[r][c] == Reveal(g.board[r][c])
    ensures UniqueSuper(g.board) ==> !g'.gameLost && OutsideCrossKept(g.board, g'.board, r, c)
    ensures Layout(g) ==> CrossOpen(g'.board, r, c)
    ensures UniqueSuper(g.board) && g'.numRevealed > 0 ==> (g'.gameWon <==> WinEquation(g'))
  {
    var g1 := PlaceFlag(g, r, c).(flagSuperMine := true);
    var g2 := ClearFlag(g1, r, c);
    PlaceThenClear(g, r, c);
    assert g2 == g.(flagSuperMine := true);
    var g3 := ShowMine(g2, r, c);
    var g4 := CrossReveal(g3, r, c, 0);
    RuleFacts(g, g3, g4, r, c);
    g4
  }

  lemma RuleFacts(g: Game, g3: Game, g4: Game, r: int, c: int)
    requires Valid(g) && InBounds(g.board, r, c) && !g.gameOver && IsSuperMine(g.board[r][c])
    requires Valid(g4) && Kept(g.(flagSuperMine := true), g3) && Kept(g3, g4)
    requires g3.board[r][c] == Reveal(g.board[r][c]) && g3.gameLost == g.gameLost
    requires forall i, j :: InBounds(g.board, i, j) && (i != r || j != c) ==> g3.board[i][j] == g.board[i][j]
    requires UniqueSuper(g3.board) && IsSuperMine(g3.board[r][c]) ==>
               g4.gameLost == g3.gameLost && OutsideCrossKept(g3.board, g4.board, r, c)
               && g4.board[r][c] == g3.board[r][c] && CrossOpenFrom(g3.board, g4, r, c, 0)
    ensures Kept(g.(flagSuperMine := true), g4)
    ensures UniqueSuper(g.board) ==> !g4.gameLost && OutsideCrossKept(g.board, g4.board, r, c)
    ensures Layout(g) ==> CrossOpen(g4.board, r, c)
  {
    var g0 := g.(flagSuperMine := true);
    KeptTransitive(g0, g3, g4);
    if UniqueSuper(g.board) {
      assert UniqueSuper(g3.board);
      if Layout(g) {
        MineCountOfSameLayout(g.board, g4.board);
        assert UniqueSuper(g4.board);
        assert Layout(g4);
        if g4.gameWon {
          WonOpensAllSafe(g4);
        }
      }
    }
  }

  lemma MineCountOfSameLayout(b: Board, b': Board)
    requires SameLayout(b, b')
    ensures Count(b', MineBearing) == Count(b, MineBearing)
  {
    CountMono(b, MineBearing, b', MineBearing);
    CountMono(b', MineBearing, b, MineBearing);
  }

  /** Squares of row `r` and column `c` from index `i` on are open, or the round ended with them safe. */
  ghost predicate CrossOpenFrom(b: Board, g': Game, r: int, c: int, i: int)
    requires Square(b) && Square(g'.board) && |g'.board| == |b| && InBounds(b, r, c) && 0 <= i
  {
    forall k :: i <= k < |b| ==>
      (k != r ==> g'.board[k][c].isRevealed || (g'.gameOver && !IsMine(b[k][c])))
      && (k != c ==> g'.board[r][k].isRevealed || (g'.gameOver && !IsMine(b[r][k])))
  }

  /**
   * The loop over `i` in the supermine rule: square (i, c) unless i is the rule's row, then
   * square (r, i) unless i is its column.
   */
  function CrossReveal(g: Game, r: int, c: int, i: int): (g': Game)
    requires Valid(g) && InBounds(g.board, r, c) && 0 <= i <= |g.board|
    ensures Valid(g') && Kept(g, g')
    ensures UniqueSuper(g.board) && IsSuperMine(g.board[r][c]) ==>
              g'.gameLost == g.gameLost && OutsideCrossKept(g.board, g'.board, r, c)
              && g'.board[r][c] == g.board[r][c] && CrossOpenFrom(g.board, g', r, c, i)
    ensures !g'.gameLost && g'.numRevealed > 0 ==> (g'.gameWon <==> WinEquation(g'))
    decreases |g.board| - i
  {
    if i == |g.board| then g
    else
      var g1 := CrossPair(g, r, c, i);
      var g2 := CrossReveal(g1, r, c, i + 1);
      CrossStep(g, g1, g2, r, c, i);
      g2
  }

  lemma {:induction false} CrossStep(g: Game, g1: Game, g2: Game, r: int, c: int, i: int)
    requires Valid(g) && InBounds(g.board, r, c) && 0 <= i < |g.board|
    requires Kept(g, g1) && Kept(g1, g2)
    requires UniqueSuper(g.board) && IsSuperMine(g.board[r][c]) ==> PairDone(g, g1, r, c, i)
    requires UniqueSuper(g1.board) && IsSuperMine(g1.board[r][c]) ==>
               g2.gameLost == g1.gameLost && OutsideCrossKept(g1.board, g2.board, r, c)
               && g2.board[r][c] == g1.board[r][c] && CrossOpenFrom(g1.board, g2, r, c, i + 1)
    ensures Kept(g, g2)
    ensures UniqueSuper(g.board) && IsSuperMine(g.board[r][c]) ==>
              g2.gameLost == g.gameLost && OutsideCrossKept(g.board, g2.board, r, c)
              && g2.board[r][c] == g.board[r][c] && CrossOpenFrom(g.board, g2, r, c, i)
  {
    KeptTransitive(g, g1, g2);
    if UniqueSuper(g.board) && IsSuperMine(g.board[r][c]) {
      assert UniqueSuper(g1.board);
      forall k | i <= k < |g.board|
        ensures k != r ==> g2.board[k][c].isRevealed || (g2.gameOver && !IsMine(g.board[k][c]))
        ensures k != c ==> g2.board[r][k].isRevealed || (g2.gameOver && !IsMine(g.board[r][k]))
      {
        assert SameContent(g.board[k][c], g1.board[k][c]) && SameContent(g.board[r][k], g1.board[r][k]);
      }
    }
  }

  /** One turn of the loop: only (i, c) and (r, i) may change, and both end up open unless the round ended with them safe. */
  ghost predicate PairDone(g: Game, g': Game, r: int, c: int, i: int)
    requires Square(g.board) && Square(g'.board) && |g'.board| == |g.board| && InBounds(g.board, r, c) && 0 <= i < |g.board|
  {
    && g'.gameLost == g.gameLost
    && OutsideCrossKept(g.board, g'.board, r, c) && g'.board[r][c] == g.board[r][c]
    && (i != r ==> g'.board[i][c].isRevealed || (g'.gameOver && !IsMine(g.board[i][c])))
    && (i != c ==> g'.board[r][i].isRevealed || (g'.gameOver && !IsMine(g.board[r][i])))
  }

  function CrossPair(g: Game, r: int, c: int, i: int): (g': Game)
    requires Valid(g) && InBounds(g.board, r, c) && 0 <= i < |g.board|
    ensures Valid(g') && Kept(g, g')
    ensures UniqueSuper(g.board) && IsSuperMine(g.board[r][c]) ==> PairDone(g, g', r, c, i)
  {
    var g1 := if i != r then LineReveal(g, i, c) else g;
    var g2 := if i != c then LineReveal(g1, r, i) else g1;
    PairFacts(g, g1, g2, r, c, i);
    g2
  }

  lemma PairFacts(g: Game, g1: Game, g2: Game, r: int, c: int, i: int)
    requires Valid(g) && InBounds(g.board, r, c) && 0 <= i < |g.board|
    requires Kept(g, g1) && Kept(g1, g2)
    requires i == r ==> g1 == g
    requires i == c ==> g2 == g1
    requires i != r && !IsSuperMine(g.board[i][c]) ==> LineDone(g, g1, i, c)
    requires i != c && !IsSuperMine(g1.board[r][i]) ==> LineDone(g1, g2, r, i)
    ensures Kept(g, g2)
    ensures UniqueSuper(g.board) && IsSuperMine(g.board[r][c]) ==> PairDone(g, g2, r, c, i)
  {
    KeptTransitive(g, g1, g2);
    if UniqueSuper(g.board) && IsSuperMine(g.board[r][c]) {
      assert i != r ==> !IsSuperMine(g.board[i][c]);
      assert i != c ==> !IsSuperMine(g1.board[r][i]);
    }
  }

  /** The square (i, j) of the cross is done: open unless the round ended with it safe; nothing else moved. */
  ghost predicate LineDone(g: Game, g': Game, i: int, j: int)
    requires Square(g.board) && Square(g'.board) && |g'.board| == |g.board| && InBounds(g.board, i, j)
  {
    && (g'.board[i][j].isRevealed || (g.gameOver && !IsMine(g.board[i][j])))
    && g'.gameLost == g.gameLost
    && forall i', j' :: InBounds(g.board, i', j') && (i' != i || j' != j) ==> g'.board[i'][j'] == g.board[i'][j']
  }

  /**
   * One square of the supermine's row or column: an ordinary mine is unflagged (through the
   * nested `flagTile`) and shown; anything else goes through `revealTile` without flood fill.
   */
  function LineReveal(g: Game, i: int, j: int): (g': Game)
    requires Valid(g) && InBounds(g.board, i, j)
    ensures Valid(g') && Kept(g, g')
    ensures !IsSuperMine(g.board[i][j]) ==> LineDone(g, g', i, j)
    ensures !IsMine(g.board[i][j]) && !g.gameOver ==> (g'.gameWon <==> WinEquation(g'))
  {
    if g.board[i][j].value == MINE then
      var g1 := if g.board[i][j].isFlagged then ClearFlag(g, i, j) else g;
      var g2 := ShowMine(g1, i, j);
      KeptTransitive(g, g1, g2);
      g2
    else RevealTile(g, i, j, false)
  }

  /**
   * The calls `flagTile` makes on itself inside the supermine rule meet a flagged square with
   * the clock running (or one that is not the supermine), and then only remove the flag.
   */
  lemma FlagOnFlagged(g: Game, r: int, c: int)
    requires Valid(g) && InBounds(g.board, r, c) && g.board[r][c].isFlagged
    requires g.startedTimer || !IsSuperMine(g.board[r][c])
    ensures Flag(g, r, c) == ClearFlag(g, r, c)
  {
  }

  /** Right-clicking a closed square twice, away from the supermine rule, only starts the clock. */
  lemma FlagTwice(g: Game, r: int, c: int)
    requires Valid(g) && InBounds(g.board, r, c)
    requires !g.gameOver && !g.board[r][c].isRevealed && !g.board[r][c].isFlagged
    requires g.markedTiles != g.numMines && !RuleFires(g, r, c)
    ensures Flag(Flag(g, r, c), r, c) == g.(startedTimer := g.startedTimer || IsSuperMine(g.board[r][c]))
  {
    var g0 := g.(startedTimer := g.startedTimer || IsSuperMine(g.board[r][c]));
    assert Flag(g, r, c) == PlaceFlag(g0, r, c);
    PlaceThenClear(g0, r, c);
  }

  // ---------------------------------------------------------------------------
  // The clock and the forfeit

  /**
   * One run of the timer task: while the clock runs and the round is live, a second is taken
   * off; with none left the round is lost. `EndGame` cancels the timer, so a finished round
   * is not touched.
   */
  function Tick(g: Game): (g': Game)
    requires Valid(g)
    ensures Valid(g')
    ensures !g.startedTimer || g.gameOver ==> g' == g
    ensures g.startedTimer && !g.gameOver && g.timeLeft > 0 ==> g' == g.(timeLeft := g.timeLeft - 1)
    ensures g.startedTimer && !g.gameOver && g.timeLeft == 0 ==>
              g'.gameOver && g'.gameLost && !g'.gameWon && g'.board == g.board
              && g'.records == g.records + [Summary(g')] && Summary(g').totalGameTime == g.maxTime
  {
    if !g.startedTimer || g.gameOver then g
    else if g.timeLeft > 0 then g.(timeLeft := g.timeLeft - 1)
    else EndGame(g.(gameLost := true))
  }

  datatype EngineError = NotStarted

  /**
   * `Solution`: before the first left click it refuses (the Java code shows an error dialog);
   * otherwise every mine is shown and the round is lost. It does not look at `gameOver`,
   * so on a finished round it ends the round a second time.
   */
  function Solution(g: Game): (r: Result<Game, EngineError>)
    requires Valid(g)
    ensures r.Failure? <==> g.attempts == 0
    ensures r.Success? ==> var g' := r.value;
              && Valid(g') && g'.gameOver && g'.gameLost && g'.gameWon == g.gameWon
              && SameLayout(g.board, g'.board) && OpenSquaresKept(g.board, g'.board)
              && AllMinesOpen(g'.board) && SafeSquaresKept(g.board, g'.board)
              && g'.records == g.records + [Summary(g')]
              && g'.numRevealed == g.numRevealed && g'.attempts == g.attempts && g'.timeLeft == g.timeLeft
              && g'.numMines == g.numMines && g'.maxTime == g.maxTime && g'.flagSuperMine == g.flagSuperMine
              && g' == g.(board := g'.board, gameOver := true, gameLost := true, records := g'.records)
  {
    if g.attempts == 0 then Failure(NotStarted) else Success(Forfeit(g))
  }

  /** Every mine is shown and the round ends lost, whether or not it was already over. */
  function Forfeit(g: Game): (g': Game)
    requires Valid(g)
    ensures Valid(g') && g'.gameOver && g'.gameLost && g'.gameWon == g.gameWon
    ensures SameLayout(g.board, g'.board) && OpenSquaresKept(g.board, g'.board)
    ensures AllMinesOpen(g'.board) && SafeSquaresKept(g.board, g'.board)
    ensures Count(g'.board, Hidden) <= Count(g.board, Hidden)
    ensures g'.records == g.records + [Summary(g')]
    ensures g' == g.(board := g'.board, gameOver := true, gameLost := true, records := g'.records)
  {
    RevealMinesFacts(g.board);
    EndGame(g.(board := RevealMines(g.board), gameLost := true))
  }

  // ---------------------------------------------------------------------------
  // Sessions of player input

  datatype Action = LeftClick(row: int, col: int) | RightClick(row: int, col: int) | Second | ShowSolution

  /** Clicks land on the board. */
  predicate Fits(n: int, a: Action) {
    match a
    case LeftClick(r, c) => 0 <= r < n && 0 <= c < n
    case RightClick(r, c) => 0 <= r < n && 0 <= c < n
    case _ => true
  }

  function Clicks(actions: seq<Action>): nat {
    if actions == [] then 0 else Clicks(actions[..|actions| - 1]) + (if actions[|actions| - 1].LeftClick? then 1 else 0)
  }

  /** What every input keeps, whatever the order. */
  ghost predicate Session(g: Game, g': Game) {
    && SameLayout(g.board, g'.board) && OpenSquaresKept(g.board, g'.board)
    && g'.numMines == g.numMines && g'.maxTime == g.maxTime && g'.timeLeft <= g.timeLeft
    && (g.flagSuperMine ==> g'.flagSuperMine) && (g.startedTimer ==> g'.startedTimer)
    && (g.gameOver ==> g'.gameOver) && g.records <= g'.records
  }

  /** One input: a left click, a right click, a second of the clock, or the Solution menu item. */
  function Apply(g: Game, a: Action): (g': Game)
    requires Valid(g) && Fits(|g.board|, a)
    ensures Valid(g') && Session(g, g')
    ensures g'.attempts == g.attempts + (if a.LeftClick? then 1 else 0)
  {
    match a
    case LeftClick(r, c) => AddRevealClick(g, r, c)
    case RightClick(r, c) => Flag(g, r, c)
    case Second => Tick(g)
    case ShowSolution =>
      var r := Solution(g);
      if r.Success? then r.value else g
  }

  /** A sequence of inputs, oldest first. */
  function Run(g: Game, actions: seq<Action>): (g': Game)
    requires Valid(g) && forall a <- actions :: Fits(|g.board|, a)
    ensures Valid(g') && Session(g, g')
    ensures g'.attempts == g.attempts + Clicks(actions)
    decreases |actions|
  {
    if actions == [] then g
    else
      var g1 := Run(g, actions[..|actions| - 1]);
      var g2 := Apply(g1, actions[|actions| - 1]);
      SameLayoutTransitive(g.board, g1.board, g2.board);
      g2
  }

  function Seconds(n: nat): (acts: seq<Action>)
    ensures |acts| == n && forall a <- acts :: a == Second
  {
    seq(n, _ => Second)
  }

  /** While time remains, each second of a running clock takes exactly one off `timeLeft`. */
  lemma {:induction false} CountDown(g: Game, n: nat)
    requires Valid(g) && g.startedTimer && !g.gameOver && n <= g.timeLeft
    ensures Run(g, Seconds(n)) == g.(timeLeft := g.timeLeft - n)
  {
    if n > 0 {
      assert Seconds(n)[..n - 1] == Seconds(n - 1);
      CountDown(g, n - 1);
    }
  }

  /** A running clock left alone loses the round after `timeLeft + 1` seconds, with all of `maxTime` used. */
  lemma TimeRunsOut(g: Game)
    requires Valid(g) && g.startedTimer && !g.gameOver
    ensures var g' := Run(g, Seconds(g.timeLeft + 1));
      g'.gameLost && !g'.gameWon && g'.board == g.board && g'.timeLeft == 0
      && g'.records == g.records + [Summary(g')] && Summary(g').totalGameTime == g.maxTime
  {
    var n := g.timeLeft;
    assert Seconds(n + 1)[..n] == Seconds(n);
    CountDown(g, n);
  }

  /**
   * Once a round is over, clicks and seconds change nothing that matters: the board, the
   * outcome, `numRevealed`, `markedTiles`, `timeLeft` and the recorded history stay as they
   * are; only `attempts` still counts left clicks. The Solution menu item can still act
   * (see `Solution`).
   */
  lemma {:induction false} OverIsFinal(g: Game, actions: seq<Action>)
    requires Valid(g) && g.gameOver
    requires forall a <- actions :: Fits(|g.board|, a) && !a.ShowSolution?
    ensures var g' := Run(g, actions);
      && g'.board == g.board && g'.records == g.records && g'.timeLeft == g.timeLeft
      && g'.gameWon == g.gameWon && g'.gameLost == g.gameLost
      && g'.numRevealed == g.numRevealed && g'.markedTiles == g.markedTiles
  {
    if actions != [] {
      var init := actions[..|actions| - 1];
      assert forall a <- init :: a in actions;
      OverIsFinal(g, init);
      var g1 := Run(g, init);
      ApplyWhenOver(g1, actions[|actions| - 1]);
    }
  }

  lemma ApplyWhenOver(g: Game, a: Action)
    requires Valid(g) && g.gameOver && Fits(|g.board|, a) && !a.ShowSolution?
    ensures var g' := Apply(g, a);
      && g'.board == g.board && g'.records == g.records && g'.timeLeft == g.timeLeft
      && g'.gameWon == g.gameWon && g'.gameLost == g.gameLost
      && g'.numRevealed == g.numRevealed && g'.markedTiles == g.markedTiles
  {
  }

  /**
   * A whole round from a fresh board. Every reachable state keeps the counters honest:
   * `numRevealed` is the number of open safe squares, flags never exceed the budget, and
   * while the round is live the budget in use is exactly the number of flags. Once a safe
   * square is open, a round not lost is won exactly when the win equation holds.
   */
  function PlayRound(board: Board, numMines: int, maxTime: int, actions: seq<Action>): (g: Game)
    requires Square(board) && Pristine(board) && 0 <= numMines && 0 <= maxTime
    requires forall a <- actions :: Fits(|board|, a)
    ensures g.numRevealed == Count(g.board, RevealedSafe)
    ensures Count(g.board, Flagged) <= g.markedTiles <= numMines
    ensures !g.gameOver ==> g.markedTiles == Count(g.board, Flagged)
    ensures g.gameOver <==> g.gameWon || g.gameLost
    ensures !g.gameLost && g.numRevealed > 0 ==> (g.gameWon <==> WinEquation(g))
    ensures SameLayout(board, g.board) && g.attempts == Clicks(actions)
  {
    NewGameValid(board, numMines, maxTime);
    Run(NewGame(board, numMines, maxTime), actions)
  }
}

=== FILE: text.dfy ===
/**
 * Text handling shared by the record formats: decimal text of integers, as produced by
 * Java string concatenation of an `int`/`long` and as read back by `Integer.parseInt`,
 * splitting a line at a separator, and stripping a fixed prefix and suffix.
 */
module Text {
  import opened Wrappers

  /** Bounds of a Java `int`; `Integer.parseInt` rejects anything outside them. */
  const INT_MIN: int := -0x8000_0000
  const INT_MAX: int := 0x7fff_ffff

  predicate IsDigit(ch: char) {
    '0' <= ch <= '9'
  }

  predicate AllDigits(s: string) {
    forall k :: 0 <= k < |s| ==> IsDigit(s[k])
  }

  function DigitChar(d: nat): (ch: char)
    requires d < 10
    ensures IsDigit(ch)
  {
    ('0' as int + d) as char
  }

  function DigitValue(ch: char): (d: nat)
    requires IsDigit(ch)
    ensures d < 10
  {
    (ch as int) - ('0' as int)
  }

  /** Most-significant-first decimal digits of a natural number, without leading zeros. */
  function NatToString(n: nat): (s: string)
    ensures 1 <= |s| && AllDigits(s)
    ensures n < 10 <==> |s| == 1
    decreases n
  {
    if n < 10 then [DigitChar(n)] else NatToString(n / 10) + [DigitChar(n % 10)]
  }

  /** Java's decimal rendering of an integer: a leading '-' for negatives. */
  function IntToString(n: int): string {
    if n < 0 then "-" + NatToString(-n) else NatToString(n)
  }

  /** The number a string of decimal digits denotes. */
  function DigitsValue(s: string): nat
    requires AllDigits(s)
    decreases |s|
  {
    if |s| == 0 then 0 else DigitsValue(s[..|s| - 1]) * 10 + DigitValue(s[|s| - 1])
  }

  /**
   * `Integer.parseInt(s)` in radix 10: an optional '+' or '-', then at least one digit,
   * and a value that fits a Java `int`; anything else is a NumberFormatException (None).
   */
  function ParseInt(s: string): (r: Option<int>)
    ensures r.Some? ==> INT_MIN <= r.value <= INT_MAX
  {
    if |s| == 0 then None
    else
      var negative := s[0] == '-';
      var digits := if s[0] == '-' || s[0] == '+' then s[1..] else s;
      if |digits| == 0 || !AllDigits(digits) then None
      else
        var magnitude: int := DigitsValue(digits);
        var v := if negative then -magnitude else magnitude;
        if INT_MIN <= v <= INT_MAX then Some(v) else None
  }

  lemma {:induction false} DigitsValueOfNatToString(n: nat)
    ensures DigitsValue(NatToString(n)) == n
    decreases n
  {
    var s := NatToString(n);
    if n >= 10 {
      var p := NatToString(n / 10);
      assert s[..|s| - 1] == p;
      DigitsValueOfNatToString(n / 10);
    }
  }

  /** Different numbers are never rendered alike. */
  lemma NatToStringInjective(a: nat, b: nat)
    requires NatToString(a) == NatToString(b)
    ensures a == b
  {
    DigitsValueOfNatToString(a);
    DigitsValueOfNatToString(b);
  }

  /** Reading back what was written gives the number back, for every Java `int`. */
  lemma ParseIntOfIntToString(n: int)
    requires INT_MIN <= n <= INT_MAX
    ensures ParseInt(IntToString(n)) == Some(n)
  {
    var s := IntToString(n);
    if n < 0 {
      var digits := NatToString(-n);
      assert s[0] == '-' && s[1..] == digits;
      DigitsValueOfNatToString(-n);
      assert DigitsValue(digits) == -n;
    } else {
      assert IsDigit(s[0]);
      DigitsValueOfNatToString(n);
    }
  }

  lemma IntToStringInjective(a: int, b: int)
    requires IntToString(a) == IntToString(b)
    ensures a == b
  {
    var s := IntToString(a);
    assert a < 0 <==> s[0] == '-';
    assert b < 0 <==> IntToString(b)[0] == '-';
    if a < 0 {
      assert s[1..] == NatToString(-a) && IntToString(b)[1..] == NatToString(-b);
      NatToStringInjective(-a, -b);
    } else {
      NatToStringInjective(a, b);
    }
  }

  /** Decimal text never contains a character other than digits and '-'. */
  lemma CharNotInNumber(n: int, ch: char)
    requires !IsDigit(ch) && ch != '-'
    ensures ch !in IntToString(n)
  {
    if n < 0 {
      assert IntToString(n) == "-" + NatToString(-n);
      assert AllDigits(NatToString(-n));
    } else {
      assert AllDigits(NatToString(n));
    }
  }

  // ---------------------------------------------------------------------------
  // Fields and affixes

  /** The fields of `s` between occurrences of `sep`. */
  function Split(s: string, sep: char): (parts: seq<string>)
    ensures |parts| >= 1
    decreases |s|
  {
    if |s| == 0 then [""]
    else
      var rest := Split(s[1..], sep);
      if s[0] == sep then [""] + rest else [[s[0]] + rest[0]] + rest[1..]
  }

  lemma {:induction false} SplitNoSep(a: string, sep: char)
    requires sep !in a
    ensures Split(a, sep) == [a]
    decreases |a|
  {
    if |a| > 0 {
      SplitNoSep(a[1..], sep);
      assert [a[0]] + a[1..] == a;
    }
  }

  /** A field free of the separator is split off whole. */
  lemma {:induction false} SplitFirst(a: string, sep: char, t: string)
    requires sep !in a
    ensures Split(a + [sep] + t, sep) == [a] + Split(t, sep)
    decreases |a|
  {
    var s := a + [sep] + t;
    if |a| == 0 {
      assert s[1..] == t;
    } else {
      assert s[1..] == a[1..] + [sep] + t;
      SplitFirst(a[1..], sep, t);
      assert [a[0]] + a[1..] == a;
    }
  }

  predicate StartsWith(s: string, prefix: string) {
    |prefix| <= |s| && s[..|prefix|] == prefix
  }

  predicate EndsWith(s: string, suffix: string) {
    |suffix| <= |s| && s[|s| - |suffix|..] == suffix
  }

  /** The text between `prefix` and `suffix`, when `s` is framed by them. */
  function Between(s: string, prefix: string, suffix: string): (r: Option<string>)
    ensures r.Some? ==> s == prefix + r.value + suffix
  {
    if |prefix| + |suffix| <= |s| && StartsWith(s, prefix) && EndsWith(s, suffix)
    then
      var m := s[|prefix|..|s| - |suffix|];
      assert s == s[..|prefix|] + m + s[|s| - |suffix|..];
      Some(m)
    else None
  }

  lemma BetweenOfFramed(prefix: string, m: string, suffix: string)
    ensures Between(prefix + m + suffix, prefix, suffix) == Some(m)
  {
    var s := prefix + m + suffix;
    assert s[..|prefix|] == prefix;
    assert s[|s| - |suffix|..] == suffix;
    assert s[|prefix|..|s| - |suffix|] == m;
  }
}

=== FILE: tile.dfy ===
/**
 * One square of the board: its position, its content code, the adjacency count shown
 * once it is opened, and the two status flags. The widget styling of the Java class
 * is not part of the model.
 */
module Tiles {

  /** Content codes: 0 is an ordinary square. */
  const MINE: int := -1
  const SUPER_MINE: int := -2

  datatype Tile = Tile(
    row: int,
    col: int,
    value: int,
    adjacentMines: int,
    isRevealed: bool,
    isFlagged: bool)

  /** A square carrying either kind of mine. */
  predicate IsMine(t: Tile) {
    t.value == MINE || t.value == SUPER_MINE
  }

  predicate IsSuperMine(t: Tile) {
    t.value == SUPER_MINE
  }

  /** Position and content: the parts no player action changes. */
  predicate SameContent(t: Tile, u: Tile) {
    t.row == u.row && t.col == u.col && t.value == u.value
  }

  /** A freshly constructed square: closed, unflagged, adjacency 0. */
  function NewTile(row: int, col: int, value: int): (t: Tile)
    ensures t.row == row && t.col == col && t.value == value
    ensures t.adjacentMines == 0 && !t.isRevealed && !t.isFlagged
  {
    Tile(row, col, value, 0, false, false)
  }

  /** Opening a square clears any flag on it; position, content and adjacency are kept. */
  function Reveal(t: Tile): (u: Tile)
    ensures u.isRevealed && !u.isFlagged
    ensures SameContent(t, u) && u.adjacentMines == t.adjacentMines
  {
    t.(isRevealed := true, isFlagged := false)
  }

  /** Right-click state change: only the flag moves. */
  function ToggleFlag(t: Tile): (u: Tile)
    ensures u.isFlagged == !t.isFlagged
    ensures u.isRevealed == t.isRevealed
    ensures SameContent(t, u) && u.adjacentMines == t.adjacentMines
  {
    t.(isFlagged := !t.isFlagged)
  }

  /** Changes the content code; used only while the board is being generated. */
  function SetValue(t: Tile, v: int): (u: Tile)
    ensures u.value == v && u.row == t.row && u.col == t.col
    ensures u.adjacentMines == t.adjacentMines && u.isRevealed == t.isRevealed && u.isFlagged == t.isFlagged
  {
    t.(value := v)
  }

  /** Stores the adjacency count computed by the round engine. */
  function WithAdjacentMines(t: Tile, n: int): (u: Tile)
    ensures u.adjacentMines == n
    ensures SameContent(t, u) && u.isRevealed == t.isRevealed && u.isFlagged == t.isFlagged
  {
    t.(adjacentMines := n)
  }

  /** Opening an open square changes nothing. */
  lemma RevealIdempotent(t: Tile)
    ensures Reveal(Reveal(t)) == Reveal(t)
  {
  }

  /** Two toggles restore the square. */
  lemma ToggleFlagInvolution(t: Tile)
    ensures ToggleFlag(ToggleFlag(t)) == t
  {
  }
}

=== FILE: wrappers.dfy ===
/** Failure-carrying return types used in place of the Java code's null returns and exceptions. */
module Wrappers {

  /** A value that may be absent. */
  datatype Option<+T> = None | Some(value: T)

  /** Either a computed value or the error that stopped the computation. */
  datatype Result<+R, +E> = Success(value: R) | Failure(error: E)
}
